=== FILE: README.md ===
# A model of the template scaffolder

`sbin/scaffold.py` turns a clone of the `autobots-agents-jarvis` template
into a new project. It renames every mention of `jarvis` after a project
name given on the command line, such as `kbe-pay`. This project models
the pure logic behind that transformation and proves properties of it:

- **Name validation and derivation** (`names.dfy`, module `ProjectNames`).
  A name is accepted only when it matches `^[a-z][a-z0-9]*(-[a-z0-9]+)*$`,
  including Python's reading of `$`, which also accepts one trailing
  newline. An accepted name yields the snake, package, repository, Pascal
  and display variants. The optional `--display-name` override is modelled
  too.
- **The replacement table** (`replacements.dfy`, module `Replacements`).
  These are the eighteen `(old, new)` pairs of `build_replacements`. Their
  application is a left fold of `str.replace`.
- **Binary classification** (`binary.dfy`, module `BinaryFiles`). This is
  `is_binary`: the lower-cased `Path.suffix` is looked up in
  `BINARY_EXTENSIONS`. Lower-casing includes the KELVIN SIGN, which
  Python lowers to `k`.
- **The content pass** (`rewrite.dfy`, module `ContentRewrite`). This is
  `replace_in_files` over a file tree, a map from path components to text.
  A given set of readable files stands for the files that decode as text.
- **The rename plan** (`rename.dfy`, module `RenamePlan`). This is the
  first phase of `rename_paths`: from the bottom-up walk, it computes the
  list of `(old, new)` path pairs.
- **The post-processing overrides** (`overrides.dfy`, module `Overrides`).
  These are the description in `pyproject.toml` and a non-default port,
  including Python's `str(int)`.
- **Supporting modules.**
  - Python's string operations, such as `str.replace`, `split`, `join` and
    `in`, are in `strings.dfy` (module `Strings`).
  - ASCII case mapping is in `ascii.dfy` (module `Ascii`).
  - Paths and `SKIP_DIRS` are in `paths.dfy` (module `ProjectPaths`).
  - `Option` and `Result` are in `wrappers.dfy` (module `Wrappers`).

Nothing in the model performs I/O.

- The walks of `os.walk` are given as a sequence: of paths for the content
  pass, and of `(root, files)` entries for the rename plan.
- Reading a file is a lookup in the tree.
- Writing a file is a map update.
- The tree holds each file's text as its UTF-8 decoding, which is how the content pass reads it, with line endings already turned into `\n`. The overrides read and write with the locale's encoding instead; the model takes that encoding to be UTF-8 (see "## Left out").
- The printed reports appear only as the list of updated files.

## Model

| member | source | states |
|---|---|---|
| ProjectNames.NameGrammar | sbin/scaffold.py:79 | The pattern `[a-z][a-z0-9]*(-[a-z0-9]+)*`, stated per character. Every name it accepts is free of `--` (`"--" in name` is false) and of newlines. |
| ProjectNames.RegexAccepts | sbin/scaffold.py:79 | What `re.match` with the anchored pattern accepts: the grammar, or the grammar followed by one newline. An accepted name starts with a lower-case letter, and a newline can only be its last character. |
| ProjectNames.MatchNamePattern | sbin/scaffold.py:79-81 | A left-to-right scan that accepts a name exactly when `re.match` with the name pattern does. This includes a name followed by one newline, because Python's `$` accepts that. |
| ProjectNames.DeriveNames | sbin/scaffold.py:77-96 | A name is rejected with an error exactly when the pattern does not match, and the error carries the name. For an accepted name:<br>• `name` is unchanged;<br>• `repo_name` and `pypi_name` are both `autobots-` plus the name;<br>• `package_name` is `autobots_` plus the snake name. |
| ProjectNames.WithDisplayName | sbin/scaffold.py:267-268 | A non-empty display name replaces `display_name` and nothing else. An absent or empty one leaves the record unchanged, because an empty string is falsy. |
| ProjectNames.ResolveNames | sbin/scaffold.py:266-268 | `scaffold` stops with an error exactly for rejected names. Otherwise it gets the derived names, which differ from `derive_names` at most in the display name. |
| ProjectNames.AcceptedChars | sbin/scaffold.py:79 | An accepted name holds only lower-case letters, digits, hyphens and the one trailing newline the regex lets through. |
| ProjectNames.NameWords | sbin/scaffold.py:84 | For an accepted name:<br>• the hyphen-separated parts join back to the name;<br>• no part holds a hyphen, a space or an upper-case letter;<br>• the name is its own lower-case form. |
| ProjectNames.DerivedWords | sbin/scaffold.py:83-86 | The snake name is the name with `-` turned into `_` character by character, so it has the name's length and no hyphen. The Pascal and display names are the capitalized parts, concatenated and space-joined respectively. |
| ProjectNames.CapitalizeAll | sbin/scaffold.py:85-86 | The generator `p.capitalize() for p in parts`: one word per part, in order, each the capitalized part. |
| ProjectNames.DisplayAndPascalAgree | sbin/scaffold.py:84-86 | For every accepted name:<br>• deleting the display name's spaces gives the Pascal name;<br>• turning the spaces back into hyphens and lower-casing gives the project name;<br>• the Pascal name lower-cased is the name without hyphens. |
| ProjectNames.KbePayVariants | sbin/scaffold.py:77-96 | `kbe-pay` yields `autobots-kbe-pay` (twice), `autobots_kbe_pay`, `kbe_pay`, `KbePay` and `Kbe Pay`. |
| ProjectNames.MyAppDisplayOverride | sbin/scaffold.py:266-268 | `my-app` with display name `My Application` keeps snake name `my_app` and takes the given display name. |
| ProjectNames.RejectedNames | sbin/scaffold.py:79-81 | The following are all errors:<br>• an upper-case name;<br>• a leading digit;<br>• a doubled, leading or trailing hyphen;<br>• the empty name. |
| ProjectNames.TrailingNewlineAccepted | sbin/scaffold.py:79 | `kbe-pay` plus a newline passes the check, and the newline is carried into the snake name. |
| Ascii.Capitalize | sbin/scaffold.py:85 | `capitalize` upper-cases the first character, lower-cases the rest, and keeps the length. |
| Ascii.CapitalizeLowercaseWord | sbin/scaffold.py:85-86 | On a lower-case word, `capitalize` changes only the first character, and only when it is a letter. A leading digit stays. |
| Ascii.LowerOfCapitalize | sbin/scaffold.py:85-86 | Lower-casing a capitalized word gives the lower-cased word back. |
| Ascii.Lower | sbin/scaffold.py:85-86 | `str.lower` as `capitalize` applies it to the rest of a word: same length, each ASCII upper-case letter turned into its lower-case letter, every other character kept. Only ASCII letters are mapped; see "## Left out". |
| Ascii.Upper | sbin/scaffold.py:102 | `sn.upper()`: same length, each ASCII lower-case letter turned into its upper-case letter, every other character kept. |
| Strings.Split | sbin/scaffold.py:84 | `s.split(sep)` has at least one part, and its first part is a prefix of `s`. |
| Strings.JoinSplit | sbin/scaffold.py:84 | Joining the parts of `s.split(sep)` with `sep` gives `s` back. |
| Strings.SplitPartsLackSeparator | sbin/scaffold.py:84 | No part of `s.split(sep)` contains `sep`. |
| Strings.ReplaceAll | sbin/scaffold.py:146 | `s.replace(old, new)` scans left to right. Replacing a string by itself gives the text back unchanged. |
| Strings.ReplaceAllIsJoinSplit | sbin/scaffold.py:146 | `s.replace(old, new)` equals splitting at `old` and joining with `new`: a leftmost, non-overlapping, global replacement. |
| Strings.ReplaceAllAbsent | sbin/scaffold.py:146 | `replace` leaves a text without `old` unchanged. |
| Strings.ReplaceCharIsTranslate | sbin/scaffold.py:83 | Replacing a one-character string is a character-by-character translation. |
| Strings.Contains | sbin/scaffold.py:238 | `t in s` never holds for a `t` longer than `s`, and holds whenever `s` starts with `t`. |
| Strings.Join | sbin/scaffold.py:86 | `sep.join(parts)` of at least one part starts with the first part. |
| Strings.Concat | sbin/scaffold.py:85 | `"".join(parts)` is joining with the empty separator. |
| Strings.SplitAtFirstOccurrence | sbin/scaffold.py:84 | `s.split(sep)` is leftmost: when the first occurrence of `sep` starts at `i`, the first part is `s[:i]` and the remaining parts are the split of what follows that occurrence. |
| Strings.SplitOverlapExample | sbin/scaffold.py:84 | `"aaa".split("aa")` is `["", "a"]`. |
| Strings.ReplaceAllAtFirstOccurrence | sbin/scaffold.py:146 | `s.replace(old, new)` is leftmost: when the first occurrence of `old` starts at `i`, the result is `s[:i]`, then `new`, then the replacement applied to what follows that occurrence. |
| Strings.ReplaceOverlapExample | sbin/scaffold.py:146 | `"aaa".replace("aa", "b")` is `"ba"`. |
| Replacements.ApplyReplacementsLoop | sbin/scaffold.py:143-147 | The loop over the pairs computes the left fold of `replace` over the table, in list order. |
| Replacements.ApplyInListOrder | sbin/scaffold.py:143-147 | Applying a table is applying its first part and then its second. The empty table is the identity. |
| Replacements.ApplyReplacements | sbin/scaffold.py:143-147 | `apply_replacements` is a left fold of `replace` over the table. A text that contains none of the table's keys comes back unchanged. |
| Replacements.SkipAbsentPairs | sbin/scaffold.py:143-147 | Leading pairs whose keys a text lacks do not affect it: the table acts on that text like the rest of the table. |
| Replacements.OwnPairFiresFirst | sbin/scaffold.py:99-147 | Under most-specific-first ordering, a key is rewritten by its own pair, not by an earlier pair matching part of it. |
| Replacements.BuildReplacements | sbin/scaffold.py:108-135 | The table has eighteen pairs whose keys are the template's fixed, non-empty identifiers in the listed order, whatever the names. |
| Replacements.KeyPairOrdered | sbin/scaffold.py:108-135 | For every two positions of the table, the earlier key does not occur in the later one. |
| Replacements.TableMostSpecificFirst | sbin/scaffold.py:99-135 | No key occurs inside a later key. The bare `jarvis` catch-all is last, and `Jarvis` comes after `JarvisSettings`. |
| Replacements.TokenRulesReplace | sbin/scaffold.py:113-134 | Every pair after the repository and package names, except `JARVIS` and `Jarvis`, maps its key to that key with the template token replaced (`Jarvis` by the Pascal name, `jarvis` by the snake name). |
| Replacements.TableForName | sbin/scaffold.py:99-135 | For an accepted name and any display override:<br>• the repository and package keys map to `autobots-` plus the name and `autobots_` plus its snake form;<br>• `JARVIS` maps to the upper-cased snake name;<br>• `Jarvis` maps to the display name in force;<br>• every other key has its token swapped. |
| BinaryFiles.IsBinary | sbin/scaffold.py:138-140 | `is_binary` looks up the lower-cased suffix in `BINARY_EXTENSIONS`, lower-cased as `Fold` does. A binary file's name has a real suffix: at least one character after the dot and something before it. |
| BinaryFiles.LastIndexOf | sbin/scaffold.py:140 | `rfind` returns the position of the last occurrence, or -1 when there is none. |
| BinaryFiles.Suffix | sbin/scaffold.py:140 | `Path.suffix` is empty or starts with its only dot. |
| BinaryFiles.SuffixCharacterised | sbin/scaffold.py:140 | The non-empty suffixes are exactly the endings that start with the only dot in them, are longer than the bare dot, and are shorter than the whole name. A hidden file's leading dot starts no suffix. |
| BinaryFiles.ExtensionsAreSuffixes | sbin/scaffold.py:27-51 | Every listed extension is a dot followed by at least one non-dot character. |
| BinaryFiles.IsBinaryByEnding | sbin/scaffold.py:138-140 | A file is binary exactly when its name, lower-cased as Python would for this lookup, ends in a listed extension with at least one character in front of it. |
| BinaryFiles.IsBinaryIgnoresCase | sbin/scaffold.py:140 | The classification is case-insensitive. Lower-casing or upper-casing the name's ASCII letters, or folding the name, does not change it, so a KELVIN SIGN counts as a `k`. |
| BinaryFiles.FoldChar | sbin/scaffold.py:140 | Python's `lower` for the characters that matter to the lookup: an ASCII upper-case letter or the KELVIN SIGN U+212A becomes a lower-case ASCII letter. No other character changes, and a dot comes from a dot only. |
| BinaryFiles.Fold | sbin/scaffold.py:140 | Folding a string folds each character and keeps its length. |
| BinaryFiles.FoldWithoutKelvin | sbin/scaffold.py:140 | Without a KELVIN SIGN, folding is ASCII lower-casing. |
| BinaryFiles.FoldIgnoresCase | sbin/scaffold.py:140 | Folding after ASCII lower- or upper-casing, or after folding, gives the same as folding alone. |
| BinaryFiles.LastDotByFold | sbin/scaffold.py:140 | Names that fold alike have their last dot at the same index. |
| BinaryFiles.IsBinaryByFold | sbin/scaffold.py:138-140 | Names that fold alike are both binary or both not. |
| BinaryFiles.KelvinExample | sbin/scaffold.py:138-140 | `poetry.loc` followed by a KELVIN SIGN is binary, because Python lowers it to `poetry.lock`; `poetry.loc` itself is not. |
| BinaryFiles.BinaryExample | sbin/scaffold.py:138-140 | `logo.PNG` is binary. |
| BinaryFiles.HiddenFileExample | sbin/scaffold.py:138-140 | `.png` alone has no suffix and is not binary. |
| ProjectPaths.Parent | sbin/scaffold.py:247 | A path is its parent plus its own name. |
| ProjectPaths.Name | sbin/scaffold.py:245-249 | `PurePath.name` of a non-empty path is its last component: the leading components followed by the name give the path back. |
| ProjectPaths.AnySkippedAppend | sbin/scaffold.py:233 | A path below a directory has a skipped component exactly when the directory has one or the new component is in `SKIP_DIRS`. |
| ContentRewrite.Rewritable | sbin/scaffold.py:189-200 | A file the pass rewrites is readable as text and not binary by its own name. |
| ContentRewrite.VisitFile | sbin/scaffold.py:193-211 | One file of the walk:<br>• no file is added or removed;<br>• a dry run writes nothing;<br>• at most this file is recorded, and only when it is rewritable;<br>• the tree changes only when the file is recorded. |
| ContentRewrite.WalkFiles | sbin/scaffold.py:189-211 | The walk over a sequence of files keeps the tree's paths, writes nothing in a dry run, and records at most one file per file walked. |
| ContentRewrite.RewriteTree | sbin/scaffold.py:189-211 | The pass never adds or removes a file. |
| ContentRewrite.ChangedFiles | sbin/scaffold.py:202-203 | The changed files are files of the tree. |
| ContentRewrite.ReplaceInFiles | sbin/scaffold.py:182-211 | The walk does the following:<br>• it records exactly the rewritable files whose text the replacements change, each once;<br>• outside a dry run, it leaves the tree rewritten;<br>• in a dry run, the tree is unchanged. |
| ContentRewrite.RewriteAt | sbin/scaffold.py:193-210 | A file gets the replaced text exactly when it is rewritable, and it counts as changed exactly when that text differs. |
| ContentRewrite.WholeWalkRewrites | sbin/scaffold.py:189-211 | Walking every file once, in any order, gives the rewritten tree. |
| ContentRewrite.WholeWalkDryRun | sbin/scaffold.py:205-208 | A dry-run walk writes nothing. |
| ContentRewrite.WholeWalkRecords | sbin/scaffold.py:202-211 | With or without a dry run, the walk records exactly the changed files, each once. |
| ContentRewrite.SkippedDirsUntouched | sbin/scaffold.py:189-191 | A file inside `.git`, `.venv`, `__pycache__` or `node_modules`, at any depth, is neither rewritten nor reported. |
| ContentRewrite.RewriteChangesExactly | sbin/scaffold.py:202-210 | A file's text differs after the pass exactly when the file is among the changed ones, and it then holds the replaced text. |
| ContentRewrite.NothingChangedIsIdentity | sbin/scaffold.py:202-203 | When no file is changed, the tree comes back equal. |
| ContentRewrite.BinaryAndUnreadableUntouched | sbin/scaffold.py:195-200 | Binary files and files that fail to read keep their contents. |
| ContentRewrite.FileNamedLikeSkippedDir | sbin/scaffold.py:189-191 | Only directories are pruned. A file named `.git` is still rewritten, while one inside `.git` is not. |
| ContentRewrite.InSkippedDir | sbin/scaffold.py:189-191 | The pruning of `SKIP_DIRS`: a file directly in the project directory is never pruned, and a file below a skipped top-level directory always is. |
| RenamePlan.EntryRenames | sbin/scaffold.py:232-251 | One directory of the walk contributes at most one rename per file and one for itself. |
| RenamePlan.Relative | sbin/scaffold.py:233 | `root.relative_to(project_dir)` for a directory under the project: the project directory followed by the relative path gives the directory back. |
| RenamePlan.Plan | sbin/scaffold.py:227-251 | The plan has at most one rename per file the walk lists plus one per directory. |
| RenamePlan.FileRenames | sbin/scaffold.py:236-242 | A file of a directory is planned exactly when its name contains `jarvis`. It is planned to the same directory with every `jarvis` replaced by the snake name. |
| RenamePlan.FileRenamesOneDeeper | sbin/scaffold.py:239 | Each file rename's source is one level below the directory being visited. |
| RenamePlan.DirRename | sbin/scaffold.py:244-251 | A directory is renamed in two cases, to a sibling path:<br>• it is named `autobots_agents_jarvis`, and becomes the package name;<br>• it is named exactly `jarvis` with its parent named `domains` or `agent_configs`, and becomes the snake name.<br>No other directory is renamed. |
| RenamePlan.DomainDirExample | sbin/scaffold.py:249-251 | `src/autobots_agents_jarvis/domains/jarvis` is planned to become `.../domains/kbe_pay` for snake name `kbe_pay`. |
| RenamePlan.OtherJarvisDirExample | sbin/scaffold.py:249 | A `jarvis` directory under `docs` is not renamed. |
| RenamePlan.PlanMembers | sbin/scaffold.py:229-251 | A pair is planned exactly when some directory of the walk contributes it. |
| RenamePlan.JarvisFilesPlanned | sbin/scaffold.py:232-242 | Every file whose name mentions `jarvis`, in a directory outside `SKIP_DIRS`, is planned with its token swapped. |
| RenamePlan.PlanRenamesInPlace | sbin/scaffold.py:236-251 | Every planned rename keeps the entry in its directory, and its new name follows one of the three rules. |
| RenamePlan.SkipDirsLackToken | sbin/scaffold.py:24 | No name in `SKIP_DIRS` contains `jarvis`. |
| RenamePlan.NothingPlannedInSkippedDirs | sbin/scaffold.py:232-234 | Every planned source lies under the project directory, with no `SKIP_DIRS` component below it. |
| RenamePlan.PlanBottomUp | sbin/scaffold.py:220-229 | For a post-order walk, whenever one planned source lies inside another, the inner rename comes first. |
| Overrides.IntToString | sbin/scaffold.py:320-331 | `str(port)` is non-empty and starts with a minus sign exactly for negative ports. |
| Overrides.NatToStringValue | sbin/scaffold.py:320 | `str(n)` read back as decimal digits is `n`. |
| Overrides.NatToStringCanonical | sbin/scaffold.py:320 | Any digit string without leading zeros is the `str` of its value. |
| Overrides.IntToStringInjective | sbin/scaffold.py:316-331 | Different ports print differently, negative ones included. |
| Overrides.DescriptionOverride | sbin/scaffold.py:304-312 | The description override never adds or removes a file. In a dry run, or without a non-empty description, the tree is unchanged. Otherwise an existing `pyproject.toml` has `<display name> - Multi-agent AI Assistant Demo` replaced by the description. |
| Overrides.RewriteFile | sbin/scaffold.py:308-312 | The exists/read/replace/write block for one file: no file is added or removed, a missing file leaves the tree unchanged, and every other file keeps its text. |
| Overrides.DescriptionTouchesPyproject | sbin/scaffold.py:306-312 | Only `pyproject.toml` can change. |
| Overrides.PortOverrideText | sbin/scaffold.py:317-332 | A file that is not a port file keeps its text. Every file keeps its text when the new port prints as `1337`. |
| Overrides.PortFile | sbin/scaffold.py:317-330 | The files the port override reads are named: every `settings.py`, at any depth, is one, and a port file more than two levels deep is a `settings.py`. |
| Overrides.PortOverride | sbin/scaffold.py:304-332 | The port override never adds or removes a file. In a dry run, or with the default port, the tree is unchanged. |
| Overrides.PortOverrideTouchesPortFiles | sbin/scaffold.py:315-332 | Only the following can change:<br>• the Makefile;<br>• any `settings.py`;<br>• `sbin/run_<snake>.sh`. |
| Overrides.PortOverrideSetsPort | sbin/scaffold.py:315-332 | Outside a dry run, a non-default port's decimal text replaces 1337 in each port file's own setting. This includes a `settings.py` in any directory. |
| Overrides.DefaultPortIsNoOp | sbin/scaffold.py:316 | With the default port the override would change no file's text. The `port != 1337` guard still matters for what is read and written; see "Left out". |

## Left out

- Filesystem effects are not modelled because they are I/O:
  - `clean_artifacts`, `remove_demo_content` and their path lists (sbin/scaffold.py:54-74, 150-180);
  - the second phase of `rename_paths`, which performs the renames (sbin/scaffold.py:253-261);
  - the self-deletion of the script (sbin/scaffold.py:335-341).
- The `print` output, including the dry-run report lines and the summary banner, and the `argparse` command line are presentation only.
- The template-presence check (sbin/scaffold.py:271-276) depends on the real filesystem.
- `UnicodeDecodeError` and `PermissionError` are not modelled. They are represented only by the given `readable` set of paths.
- Overrides.DescriptionOverride: assumes a UTF-8 locale, or a display name and description that are ASCII. The content pass reads and writes UTF-8 (sbin/scaffold.py:198, 210), but the description override reads and writes with the locale's encoding (sbin/scaffold.py:309, 312). In another locale, a non-ASCII display name written by the content pass reads back as different text, so the description line is not found and nothing is replaced; a non-ASCII description is also written in the locale's encoding rather than UTF-8. The model promises the replacement in every case.
- Overrides.PortOverride: assumes a UTF-8 locale too. Its reads and writes (sbin/scaffold.py:319-332) use the locale's encoding; the port literals are ASCII, but in another locale a port file's non-ASCII text would be re-encoded or fail to decode.
- Overrides.DescriptionOverride: every read succeeds. In the scaffolder the read at sbin/scaffold.py:309 has no `try` and uses the locale's encoding, so a file that fails to decode or read stops the run after the content pass and the renames have already happened.
- Overrides.PortOverride: every read and write succeeds. The reads at sbin/scaffold.py:319, 324 and 330 are unguarded, and `rglob("settings.py")` also descends into `.venv` and `.git`, so one unreadable `settings.py` anywhere stops the run part-way.
- ContentRewrite.ReplaceInFiles: the write at sbin/scaffold.py:210 always succeeds. A `PermissionError` there is not caught in the scaffolder and stops the run; the model has no such outcome.
- Line endings are not modelled. `read_text` and `write_text` use universal newlines, so a CRLF file that the content pass rewrites (sbin/scaffold.py:198, 210) comes back with LF endings. So does every port file, which the port override writes back unconditionally (sbin/scaffold.py:319-332). The tree holds the decoded, newline-normalised text, so these changes are invisible to it.
- Overrides.DefaultPortIsNoOp: states only that no file's text would change. Skipping the guarded block also skips the re-reads and rewrites, which in the scaffolder could change line endings or stop the run on a failed read.
- The walks of `os.walk` are given as parameters: the content pass takes a sequence of paths, and the rename plan takes a sequence of `(root, files)` entries. Symbolic links, ordering within a directory, and directories the walk cannot list are not modelled.
- RenamePlan.PlanBottomUp: requires that the walk is post-order and that files are leaves, instead of deriving this from `os.walk(topdown=False)`, which is not part of this model.
- ContentRewrite.ReplaceInFiles: requires that the walk lists every file of the tree exactly once. This is what `os.walk` does with pruning expressed by `InSkippedDir`.
- Ascii.Capitalize: maps case for ASCII only. The scaffolder capitalizes and upper-cases only the parts of a name that has passed the name check, and those are ASCII, so there the result is the same. The model makes no claim for other Unicode letters.
- Ascii.Lower: lower-cases ASCII letters only, so it is not Python's `str.lower` on other Unicode text. The model uses it only on validated names. Suffixes are lowered by `BinaryFiles.Fold` instead.
- BinaryFiles.Fold: maps only `A`-`Z` and the KELVIN SIGN, so it is not Python's full `str.lower`. Python lowers every other character either to itself or to a string that still holds a non-ASCII character, and no extension holds one, so the lookup in `is_binary` comes out the same. The model makes no claim about the lowered text itself.
- `src/autobots_agents_jarvis/configs/settings.py` and the test fixtures in `tests/` are not modelled. They are thin wrappers over external libraries.
- There is no claim that the rewrite leaves no `jarvis` behind, or that a second rename pass finds nothing. Both fail when the snake name itself contains `jarvis`, and the scaffolder does not promise them.

=== FILE: ascii.dfy ===
/** Character classes and ASCII case mapping.

    Python's `str.lower`, `str.upper` and `str.capitalize` are
    Unicode-aware; the functions below map ASCII letters only. The
    scaffolder case-maps validated project names, which are ASCII, and on
    those the two agree. File suffixes are not lowered here: `BinaryFiles`
    folds them with `Fold`, which also maps the KELVIN SIGN. */
module Ascii {

  predicate IsLower(c: char) { 'a' <= c <= 'z' }

  predicate IsUpper(c: char) { 'A' <= c <= 'Z' }

  predicate IsDigit(c: char) { '0' <= c <= '9' }

  function ToLower(c: char): (r: char)
    ensures IsUpper(c) ==> IsLower(r) && r as int == c as int + 32
    ensures !IsUpper(c) ==> r == c
  {
    if IsUpper(c) then (c as int + 32) as char else c
  }

  function ToUpper(c: char): (r: char)
    ensures IsLower(c) ==> IsUpper(r) && r as int == c as int - 32
    ensures !IsLower(c) ==> r == c
  {
    if IsLower(c) then (c as int - 32) as char else c
  }

  /** Lower-casing forgets whether a character was upper-cased first. */
  lemma LowerOfUpper(c: char)
    ensures ToLower(ToUpper(c)) == ToLower(c)
  {
  }

  /** `s.lower()` */
  function Lower(s: string): (r: string)
    ensures |r| == |s|
    ensures forall i :: 0 <= i < |s| ==> r[i] == ToLower(s[i])
  {
    seq(|s|, i requires 0 <= i < |s| => ToLower(s[i]))
  }

  /** `s.upper()` */
  function Upper(s: string): (r: string)
    ensures |r| == |s|
    ensures forall i :: 0 <= i < |s| ==> r[i] == ToUpper(s[i])
  {
    seq(|s|, i requires 0 <= i < |s| => ToUpper(s[i]))
  }

  /** `s.capitalize()`: the first character upper-cased, the rest lower-cased. */
  function Capitalize(s: string): (r: string)
    ensures |r| == |s|
    ensures |s| > 0 ==> r[0] == ToUpper(s[0]) && r[1..] == Lower(s[1..])
  {
    if |s| == 0 then s else [ToUpper(s[0])] + Lower(s[1..])
  }

  lemma LowerAppend(a: string, b: string)
    ensures Lower(a + b) == Lower(a) + Lower(b)
  {
  }

  /** Lower-casing a capitalized word gives the lower-cased word back: the
      capital only ever changes the case of the first character. */
  lemma LowerOfCapitalize(s: string)
    ensures Lower(Capitalize(s)) == Lower(s)
  {
    if |s| > 0 {
      LowerOfUpper(s[0]);
      assert Lower(Capitalize(s))[0] == Lower(s)[0];
    }
  }

  /** On a word that is already lower-case, `capitalize` changes only the
      first character, and only when it is a letter: a leading digit stays. */
  lemma CapitalizeLowercaseWord(s: string)
    requires Lower(s) == s
    requires |s| > 0
    ensures Capitalize(s)[1..] == s[1..]
    ensures IsLower(s[0]) ==> IsUpper(Capitalize(s)[0])
    ensures !IsLower(s[0]) ==> Capitalize(s) == s
  {
    assert Lower(s[1..]) == s[1..] by {
      forall i | 0 <= i < |s| - 1
        ensures Lower(s[1..])[i] == s[1..][i]
      {
        assert Lower(s)[i + 1] == s[i + 1];
      }
    }
  }
}

=== FILE: binary.dfy ===
/** `is_binary`: a file counts as binary when the lower-cased suffix of its
    final path component is one of a fixed set of extensions. */
module BinaryFiles {
  import opened Ascii

  /** `BINARY_EXTENSIONS`: images, fonts, compiled Python, shared libraries,
      archives, documents, diagrams and lock files. */
  const BinaryExtensions: set<string> := {
    ".png", ".jpg", ".jpeg", ".gif", ".ico", ".bmp", ".svg", ".woff",
    ".woff2", ".ttf", ".eot", ".pyc", ".pyo", ".so", ".dylib", ".zip",
    ".tar", ".gz", ".bz2", ".xz", ".pdf", ".drawio", ".lock"
  }

  /** `s.rfind(c)`: the index of the last `c` in `s`, or -1 when there is
      none. */
  function LastIndexOf(s: string, c: char): (r: int)
    ensures -1 <= r < |s|
    ensures r >= 0 ==> s[r] == c
    ensures forall k :: r < k < |s| ==> s[k] != c
  {
    if |s| == 0 then -1
    else if s[|s| - 1] == c then |s| - 1
    else LastIndexOf(s[..|s| - 1], c)
  }

  /** `PurePath.suffix` of a final path component: from its last dot on,
      provided that dot is neither the first character (a hidden file such
      as `.gitignore` has no suffix) nor the last one. */
  function Suffix(name: string): (r: string)
    ensures r == "" || (r[0] == '.' && '.' !in r[1..])
  {
    var i := LastIndexOf(name, '.');
    if 0 < i < |name| - 1 then name[i..] else ""
  }

  /** The suffix, when there is one, is the shortest non-empty ending that
      starts with the only dot in it and is neither the whole name nor the
      bare dot. */
  lemma SuffixCharacterised(name: string, e: string)
    ensures e != "" && Suffix(name) == e
        <==> 2 <= |e| < |name| && name[|name| - |e|..] == e && e[0] == '.' && '.' !in e[1..]
  {
    var i := LastIndexOf(name, '.');
    if 2 <= |e| < |name| && name[|name| - |e|..] == e && e[0] == '.' && '.' !in e[1..] {
      var j := |name| - |e|;
      assert name[j] == '.';
      forall k | j < k < |name|
        ensures name[k] != '.'
      {
        assert name[k] == e[1..][k - j - 1];
      }
      assert i == j;
    }
  }

  /** The lower-casing `is_binary` applies to a suffix, reduced to what
      decides membership in the all-ASCII extension set. Python's
      `str.lower` turns `A`-`Z`, and also the KELVIN SIGN U+212A, into
      ASCII lower-case letters. Every other character either stays as it is
      or lowers to a string that still holds a character outside ASCII,
      which no extension matches either way. So a folded suffix is in the
      set exactly when the Python-lowered one is. */
  function FoldChar(c: char): (r: char)
    ensures IsUpper(c) || c == '\U{212A}' ==> IsLower(r)
    ensures r != c ==> IsUpper(c) || c == '\U{212A}'
    ensures r == '.' <==> c == '.'
  {
    if c == '\U{212A}' then 'k' else ToLower(c)
  }

  function Fold(s: string): (r: string)
    ensures |r| == |s|
    ensures forall i :: 0 <= i < |s| ==> r[i] == FoldChar(s[i])
  {
    seq(|s|, i requires 0 <= i < |s| => FoldChar(s[i]))
  }

  /** Without a KELVIN SIGN, folding is plain ASCII lower-casing. */
  lemma FoldWithoutKelvin(s: string)
    requires '\U{212A}' !in s
    ensures Fold(s) == Lower(s)
  {
    assert forall i :: 0 <= i < |s| ==> s[i] != '\U{212A}';
  }

  /** Folding ignores case: ASCII lower- and upper-casing first change
      nothing, and folding twice is folding once. */
  lemma FoldIgnoresCase(s: string)
    ensures Fold(Lower(s)) == Fold(s)
    ensures Fold(Upper(s)) == Fold(s)
    ensures Fold(Fold(s)) == Fold(s)
  {
  }

  /** `is_binary(path)` for a path whose final component is `name`. A
      binary file has a real suffix: at least one character after the dot,
      and something before it. */
  predicate IsBinary(name: string): (b: bool)
    ensures b ==> 2 <= |Suffix(name)| < |name|
  {
    SuffixCharacterised(name, Suffix(name));
    Fold(Suffix(name)) in BinaryExtensions
  }

  /** Every extension is a dot followed by at least one character, none of
      them another dot. */
  lemma ExtensionsAreSuffixes(e: string)
    requires e in BinaryExtensions
    ensures 2 <= |e| && e[0] == '.' && '.' !in e[1..]
  {
  }

  /** A string shaped like a suffix: a dot followed by at least one
      character, none of them another dot. */
  predicate SuffixShaped(e: string) {
    2 <= |e| && e[0] == '.' && '.' !in e[1..]
  }

  /** An ending of the name that folds to a suffix-shaped string is the
      name's suffix, up to case. */
  lemma SuffixOfEnding(name: string, e: string)
    requires SuffixShaped(e) && |e| < |name|
    requires Fold(name[|name| - |e|..]) == e
    ensures Fold(Suffix(name)) == e
  {
    var ending := name[|name| - |e|..];
    assert ending[0] == '.' by {
      assert Fold(ending)[0] == '.';
    }
    assert '.' !in ending[1..] by {
      forall k | 0 <= k < |ending| - 1
        ensures ending[1..][k] != '.'
      {
        assert Fold(ending)[k + 1] == e[1..][k];
      }
    }
    SuffixCharacterised(name, ending);
  }

  /** Membership of the folded suffix in a set of suffix-shaped extensions
      is decided by the name's ending. */
  lemma SuffixInByEnding(name: string, exts: set<string>)
    requires forall e :: e in exts ==> SuffixShaped(e)
    ensures Fold(Suffix(name)) in exts
        <==> exists e :: e in exts && |e| < |name| && Fold(name[|name| - |e|..]) == e
  {
    var s := Suffix(name);
    if Fold(s) in exts {
      var e := Fold(s);
      SuffixCharacterised(name, s);
      assert e in exts && |e| < |name| && Fold(name[|name| - |e|..]) == e;
    }
    if exists e :: e in exts && |e| < |name| && Fold(name[|name| - |e|..]) == e {
      var e :| e in exts && |e| < |name| && Fold(name[|name| - |e|..]) == e;
      SuffixOfEnding(name, e);
    }
  }

  /** Binary exactly when the name, lower-cased, ends in one of the
      extensions, with at least one character in front of it. */
  lemma IsBinaryByEnding(name: string)
    ensures IsBinary(name)
        <==> exists e :: e in BinaryExtensions && |e| < |name| && Fold(name[|name| - |e|..]) == e
  {
    forall e | e in BinaryExtensions
      ensures SuffixShaped(e)
    {
      ExtensionsAreSuffixes(e);
    }
    SuffixInByEnding(name, BinaryExtensions);
  }

  /** Names that fold alike have their last dot in the same place. */
  lemma {:induction false} LastDotByFold(a: string, b: string)
    requires Fold(a) == Fold(b)
    ensures LastIndexOf(a, '.') == LastIndexOf(b, '.')
  {
    if |a| > 0 {
      assert Fold(a)[|a| - 1] == Fold(b)[|a| - 1];
      assert Fold(a[..|a| - 1]) == Fold(a)[..|a| - 1];
      assert Fold(b[..|b| - 1]) == Fold(b)[..|b| - 1];
      LastDotByFold(a[..|a| - 1], b[..|b| - 1]);
    }
  }

  /** Names that fold alike are classified alike. */
  lemma IsBinaryByFold(a: string, b: string)
    requires Fold(a) == Fold(b)
    ensures IsBinary(a) <==> IsBinary(b)
  {
    LastDotByFold(a, b);
    var i := LastIndexOf(a, '.');
    if 0 < i < |a| - 1 {
      assert Fold(a[i..]) == Fold(a)[i..];
      assert Fold(b[i..]) == Fold(b)[i..];
    }
  }

  /** The classification ignores case: `Photo.PNG` is as binary as
      `photo.png`, and a KELVIN SIGN counts as a `k`. */
  lemma IsBinaryIgnoresCase(name: string)
    ensures IsBinary(Lower(name)) <==> IsBinary(name)
    ensures IsBinary(Upper(name)) <==> IsBinary(name)
    ensures IsBinary(Fold(name)) <==> IsBinary(name)
  {
    FoldIgnoresCase(name);
    IsBinaryByFold(Lower(name), name);
    IsBinaryByFold(Upper(name), name);
    IsBinaryByFold(Fold(name), name);
  }

  lemma BinaryExample()
    ensures IsBinary("logo.PNG")
  {
    SuffixCharacterised("logo.PNG", ".PNG");
    assert Fold(".PNG") == ".png";
  }

  /** `poetry.loc` followed by a KELVIN SIGN lowers, in Python, to
      `poetry.lock`; without that last character the name is not binary. */
  lemma KelvinExample()
    ensures IsBinary("poetry.loc\U{212A}") && !IsBinary("poetry.loc")
  {
    SuffixCharacterised("poetry.loc\U{212A}", ".loc\U{212A}");
    assert Fold(".loc\U{212A}") == ".lock";
    SuffixCharacterised("poetry.loc", ".loc");
    assert Fold(".loc") == ".loc";
  }

  /** A hidden file's leading dot starts no suffix. */
  lemma HiddenFileExample()
    ensures Suffix(".png") == "" && !IsBinary(".png")
  {
    SuffixCharacterised(".png", Suffix(".png"));
    if "" in BinaryExtensions {
      ExtensionsAreSuffixes("");
    }
  }
}

=== FILE: names.dfy ===
/** Validation of the project name given on the command line and the fixed
    set of name variants derived from it (`derive_names`), with the optional
    display-name override applied by `scaffold`. */
module ProjectNames {
  import opened Wrappers
  import opened Ascii
  import opened Strings

  predicate IsNameChar(c: char) {
    IsLower(c) || IsDigit(c) || c == '-'
  }

  /** A string in which no hyphen is followed by another has no `--`. */
  lemma NoDoubledHyphen(s: string)
    ensures (forall i :: 0 <= i < |s| - 1 && s[i] == '-' ==> s[i + 1] != '-') ==> !Contains(s, "--")
  {
    if Contains(s, "--") {
      var i: nat :| i <= |s| && OccursAt(s, "--", i);
      assert s[i..i + 2][0] == s[i] && s[i..i + 2][1] == s[i + 1];
    }
  }

  /** The grammar `[a-z][a-z0-9]*(-[a-z0-9]+)*`, stated per character:
      non-empty, starts with a lower-case letter, only lower-case letters,
      digits and hyphens, no trailing and no doubled hyphen. Such a name
      holds no `--` and no newline. */
  predicate NameGrammar(s: string): (b: bool)
    ensures b ==> !Contains(s, "--") && '\n' !in s
  {
    NoDoubledHyphen(s);
    && |s| > 0
    && IsLower(s[0])
    && (forall i :: 0 <= i < |s| ==> IsNameChar(s[i]))
    && s[|s| - 1] != '-'
    && (forall i :: 0 <= i < |s| - 1 && s[i] == '-' ==> s[i + 1] != '-')
  }

  /** What `re.match(r"^[a-z][a-z0-9]*(-[a-z0-9]+)*$", s)` accepts: Python's
      `$` matches at the very end and also just before one final newline.
      An accepted name starts with a lower-case letter, and a newline can
      only be its last character. */
  predicate RegexAccepts(s: string): (b: bool)
    ensures b ==> |s| > 0 && IsLower(s[0])
    ensures b ==> forall i :: 0 <= i < |s| - 1 ==> s[i] != '\n'
  {
    || NameGrammar(s)
    || (|s| > 0 && s[|s| - 1] == '\n' && NameGrammar(s[..|s| - 1]))
  }

  /** A string that some accepted name begins with. */
  predicate GrammarPrefix(t: string) {
    && (|t| > 0 ==> IsLower(t[0]))
    && (forall i :: 0 <= i < |t| ==> IsNameChar(t[i]))
    && (forall i :: 0 <= i < |t| - 1 && t[i] == '-' ==> t[i + 1] != '-')
  }

  /** The pattern match as a left-to-right scan, the way a regular-expression
      engine runs the pattern: it rejects at the first character the pattern
      cannot take and finally requires that the name did not end on a hyphen. */
  method MatchNamePattern(s: string) returns (ok: bool)
    ensures ok <==> RegexAccepts(s)
  {
    var end := |s|;
    if end > 0 && s[end - 1] == '\n' {
      end := end - 1;
    }
    var i := 0;
    while i < end
      invariant 0 <= i <= end
      invariant GrammarPrefix(s[..i])
    {
      var c := s[i];
      if !IsNameChar(c) || (i == 0 && !IsLower(c)) || (c == '-' && i > 0 && s[i - 1] == '-') {
        assert !GrammarPrefix(s[..end]) by {
          assert s[..end][i] == c;
          if i > 0 {
            assert s[..end][i - 1] == s[i - 1];
          }
        }
        assert !NameGrammar(s) by {
          assert s[i] == c;
        }
        return false;
      }
      i := i + 1;
      assert s[..i] == s[..i - 1] + [c];
    }
    assert s[..i] == s[..end];
    ok := end > 0 && s[end - 1] != '-';
    if end < |s| {
      assert !IsNameChar(s[|s| - 1]);
    }
  }

  /** The record `derive_names` returns. `pypiName` always equals `repoName`. */
  datatype NameVariants = NameVariants(
    name: string,
    repoName: string,
    pypiName: string,
    packageName: string,
    snakeName: string,
    pascalName: string,
    displayName: string)

  /** The one error the scaffolder reports before touching anything. */
  datatype NameError = InvalidName(name: string)

  function CapitalizeAll(parts: seq<string>): (r: seq<string>)
    ensures |r| == |parts|
    ensures forall k :: 0 <= k < |parts| ==> r[k] == Capitalize(parts[k])
  {
    if |parts| == 0 then [] else [Capitalize(parts[0])] + CapitalizeAll(parts[1..])
  }

  /** `derive_names`: a rejected name is an error (the script exits with
      status 1 at that point); an accepted name yields its variants. */
  function DeriveNames(name: string): (r: Result<NameVariants, NameError>)
    ensures r.Err? <==> !RegexAccepts(name)
    ensures r.Err? ==> r.error == InvalidName(name)
    ensures r.Ok? ==> r.value.name == name
    ensures r.Ok? ==> r.value.repoName == "autobots-" + name && r.value.pypiName == r.value.repoName
    ensures r.Ok? ==> r.value.packageName == "autobots_" + r.value.snakeName
  {
    if !RegexAccepts(name) then Err(InvalidName(name))
    else
      var snake := ReplaceAll(name, "-", "_");
      var caps := CapitalizeAll(Split(name, "-"));
      Ok(NameVariants(
        name,
        "autobots-" + name,
        "autobots-" + name,
        "autobots_" + snake,
        snake,
        Concat(caps),
        Join(caps, " ")))
  }

  /** `if args.display_name: names["display_name"] = args.display_name`: a
      non-empty override replaces the display name and nothing else; an
      absent or empty one (falsy in Python) leaves the record alone. */
  function WithDisplayName(v: NameVariants, displayName: Option<string>): (r: NameVariants)
    ensures displayName.Some? && displayName.value != "" ==> r.displayName == displayName.value
    ensures displayName.None? || displayName.value == "" ==> r == v
    ensures r.(displayName := v.displayName) == v
  {
    if displayName.Some? && displayName.value != "" then v.(displayName := displayName.value) else v
  }

  /** The names `scaffold` works with: derived, then overridden. */
  function ResolveNames(name: string, displayName: Option<string>): (r: Result<NameVariants, NameError>)
    ensures r.Err? <==> !RegexAccepts(name)
    ensures r.Ok? ==> r.value.(displayName := DeriveNames(name).value.displayName) == DeriveNames(name).value
  {
    match DeriveNames(name)
    case Err(e) => Err(e)
    case Ok(v) => Ok(WithDisplayName(v, displayName))
  }

  // ---------------------------------------------------------------------------
  // Properties of the derived variants

  /** Characters an accepted name can hold. */
  lemma AcceptedChars(name: string, c: char)
    requires RegexAccepts(name) && c in name
    ensures IsLower(c) || IsDigit(c) || c == '-' || c == '\n'
  {
    var i :| 0 <= i < |name| && name[i] == c;
    if !NameGrammar(name) && i < |name| - 1 {
      assert name[..|name| - 1][i] == c;
    }
  }

  function LowerAll(parts: seq<string>): (r: seq<string>)
    ensures |r| == |parts|
    ensures forall k :: 0 <= k < |parts| ==> r[k] == Lower(parts[k])
  {
    if |parts| == 0 then [] else [Lower(parts[0])] + LowerAll(parts[1..])
  }

  lemma {:induction false} LowerJoin(parts: seq<string>, sep: string)
    requires Lower(sep) == sep
    ensures Lower(Join(parts, sep)) == Join(LowerAll(parts), sep)
    decreases |parts|
  {
    if |parts| > 1 {
      LowerJoin(parts[1..], sep);
      LowerAppend(parts[0] + sep, Join(parts[1..], sep));
      LowerAppend(parts[0], sep);
      assert LowerAll(parts)[1..] == LowerAll(parts[1..]);
    }
  }

  lemma {:induction false} LowerConcat(parts: seq<string>)
    ensures Lower(Concat(parts)) == Concat(LowerAll(parts))
    decreases |parts|
  {
    if |parts| > 0 {
      LowerConcat(parts[1..]);
      LowerAppend(parts[0], Concat(parts[1..]));
      assert LowerAll(parts)[1..] == LowerAll(parts[1..]);
    }
  }

  lemma {:induction false} TranslateJoin(parts: seq<string>, a: char, b: char)
    requires forall k :: 0 <= k < |parts| ==> a !in parts[k]
    ensures Translate(Join(parts, [a]), a, b) == Join(parts, [b])
    decreases |parts|
  {
    if |parts| == 1 {
      assert Translate(parts[0], a, b) == parts[0];
    } else if |parts| > 1 {
      TranslateJoin(parts[1..], a, b);
      var rest := Join(parts[1..], [a]);
      assert Join(parts, [a]) == parts[0] + [a] + rest;
      assert Translate(parts[0] + [a] + rest, a, b)
          == Translate(parts[0], a, b) + [b] + Translate(rest, a, b);
      assert Translate(parts[0], a, b) == parts[0];
    }
  }

  lemma {:induction false} RemoveJoin(parts: seq<string>, c: char)
    requires forall k :: 0 <= k < |parts| ==> c !in parts[k]
    ensures Remove(Join(parts, [c]), c) == Concat(parts)
    decreases |parts|
  {
    if |parts| == 1 {
      RemoveAbsent(parts[0], c);
      assert Concat(parts) == parts[0] + Concat([]);
    } else if |parts| > 1 {
      RemoveJoin(parts[1..], c);
      var rest := Join(parts[1..], [c]);
      RemoveAppend(parts[0] + [c], rest, c);
      RemoveAppend(parts[0], [c], c);
      RemoveAbsent(parts[0], c);
      assert Remove([c], c) == [];
    }
  }

  /** The hyphen-separated words of an accepted name: no hyphen, no space and
      no upper-case letter inside any of them. */
  lemma NameWords(name: string)
    requires RegexAccepts(name)
    ensures Join(Split(name, "-"), "-") == name
    ensures Lower(name) == name
    ensures forall k :: 0 <= k < |Split(name, "-")| ==>
              && '-' !in Split(name, "-")[k]
              && ' ' !in Split(name, "-")[k]
              && Lower(Split(name, "-")[k]) == Split(name, "-")[k]
  {
    var parts := Split(name, "-");
    JoinSplit(name, "-");
    SplitPartsLackSeparator(name, "-");
    forall i | 0 <= i < |name|
      ensures Lower(name)[i] == name[i]
    {
      AcceptedChars(name, name[i]);
    }
    forall k | 0 <= k < |parts|
      ensures '-' !in parts[k] && ' ' !in parts[k] && Lower(parts[k]) == parts[k]
    {
      ContainsChar(parts[k], '-');
      forall c | c in parts[k]
        ensures c != ' ' && !IsUpper(c)
      {
        JoinKeepsChars(parts, "-", k, c);
        AcceptedChars(name, c);
      }
    }
  }

  lemma CapitalizeNoSpace(p: string)
    requires ' ' !in p
    ensures ' ' !in Capitalize(p)
  {
    if |p| > 0 {
      assert Capitalize(p) == [ToUpper(p[0])] + Lower(p[1..]);
      assert forall c :: c in Lower(p[1..]) ==> c != ' ';
    }
  }

  /** The capitalized words of an accepted name hold no space. */
  lemma CapsLackSpace(name: string)
    requires RegexAccepts(name)
    ensures forall k :: 0 <= k < |CapitalizeAll(Split(name, "-"))| ==>
              ' ' !in CapitalizeAll(Split(name, "-"))[k]
  {
    var parts := Split(name, "-");
    NameWords(name);
    forall k | 0 <= k < |parts|
      ensures ' ' !in CapitalizeAll(parts)[k]
    {
      CapitalizeNoSpace(parts[k]);
    }
  }

  /** Lower-casing the capitalized words of an accepted name gives its
      words back. */
  lemma LowerOfCaps(name: string)
    requires RegexAccepts(name)
    ensures LowerAll(CapitalizeAll(Split(name, "-"))) == Split(name, "-")
  {
    var parts := Split(name, "-");
    var caps := CapitalizeAll(parts);
    NameWords(name);
    forall k | 0 <= k < |caps|
      ensures LowerAll(caps)[k] == parts[k]
    {
      LowerOfCapitalize(parts[k]);
    }
  }

  /** Deleting the display name's spaces gives the Pascal name. */
  lemma DisplayWithoutSpaces(name: string)
    requires RegexAccepts(name)
    ensures Remove(DeriveNames(name).value.displayName, ' ') == DeriveNames(name).value.pascalName
  {
    DerivedWords(name);
    CapsLackSpace(name);
    RemoveJoin(CapitalizeAll(Split(name, "-")), ' ');
  }

  /** Turning the display name's spaces into hyphens and lower-casing gives
      the project name back. */
  lemma DisplayBackToName(name: string)
    requires RegexAccepts(name)
    ensures Lower(Translate(DeriveNames(name).value.displayName, ' ', '-')) == name
  {
    var caps := CapitalizeAll(Split(name, "-"));
    DerivedWords(name);
    CapsLackSpace(name);
    TranslateJoin(caps, ' ', '-');
    LowerJoin(caps, "-");
    LowerOfCaps(name);
    NameWords(name);
  }

  /** The Pascal name lower-cased is the project name without hyphens. */
  lemma PascalLowered(name: string)
    requires RegexAccepts(name)
    ensures Lower(DeriveNames(name).value.pascalName) == Remove(name, '-')
  {
    var parts := Split(name, "-");
    DerivedWords(name);
    LowerConcat(CapitalizeAll(parts));
    LowerOfCaps(name);
    NameWords(name);
    RemoveJoin(parts, '-');
  }

  /** The display name and the Pascal name are the same capitalized words:
      deleting the display name's spaces gives the Pascal name; turning its
      spaces back into hyphens and lower-casing gives the project name back;
      and the Pascal name lower-cased is the project name without hyphens. */
  lemma DisplayAndPascalAgree(name: string)
    requires RegexAccepts(name)
    ensures Remove(DeriveNames(name).value.displayName, ' ') == DeriveNames(name).value.pascalName
    ensures Lower(Translate(DeriveNames(name).value.displayName, ' ', '-')) == name
    ensures Lower(DeriveNames(name).value.pascalName) == Remove(name, '-')
  {
    DisplayWithoutSpaces(name);
    DisplayBackToName(name);
    PascalLowered(name);
  }

  // ---------------------------------------------------------------------------
  // Worked examples

  lemma KbePayWords()
    ensures Split("kbe-pay", "-") == ["kbe", "pay"]
  {
    assert OccursAt("kbe-pay", "-", 3);
    forall j: nat | j < 3
      ensures !OccursAt("kbe-pay", "-", j)
    {
      assert "kbe-pay"[j..j + 1] == ["kbe-pay"[j]];
    }
    assert "kbe-pay"[..3] == "kbe" && "kbe-pay"[4..] == "pay";
    SplitAtFirstOccurrence("kbe-pay", "-", 3);
    ContainsChar("pay", '-');
    SplitAbsent("pay", "-");
  }

  lemma KbePayCapitals()
    ensures CapitalizeAll(["kbe", "pay"]) == ["Kbe", "Pay"]
  {
    assert Capitalize("kbe") == "Kbe" by {
      assert Lower("be") == "be";
    }
    assert Capitalize("pay") == "Pay" by {
      assert Lower("ay") == "ay";
    }
    assert CapitalizeAll(["kbe", "pay"])[1..] == CapitalizeAll(["pay"]);
  }

  lemma KbePayAccepted()
    ensures NameGrammar("kbe-pay")
  {
  }

  /** The words of an accepted name, capitalized: what the Pascal and the
      display name are made of. */
  lemma DerivedWords(name: string)
    requires RegexAccepts(name)
    ensures DeriveNames(name).value.pascalName == Concat(CapitalizeAll(Split(name, "-")))
    ensures DeriveNames(name).value.displayName == Join(CapitalizeAll(Split(name, "-")), " ")
    ensures DeriveNames(name).value.snakeName == Translate(name, '-', '_')
    ensures |DeriveNames(name).value.snakeName| == |name|
    ensures '-' !in DeriveNames(name).value.snakeName
  {
    ReplaceCharIsTranslate(name, '-', '_');
  }

  lemma KbePayPascal()
    ensures Concat(CapitalizeAll(Split("kbe-pay", "-"))) == "KbePay"
  {
    KbePayWords();
    KbePayCapitals();
    KbePayConcat();
  }

  lemma KbePayConcat()
    ensures Concat(["Kbe", "Pay"]) == "KbePay"
  {
    assert ["Kbe", "Pay"][1..] == ["Pay"];
    assert Concat(["Pay"]) == "Pay" + Concat([]);
  }

  lemma KbePayDisplay()
    ensures Join(CapitalizeAll(Split("kbe-pay", "-")), " ") == "Kbe Pay"
  {
    KbePayWords();
    KbePayCapitals();
    KbePayJoin();
  }

  lemma KbePayJoin()
    ensures Join(["Kbe", "Pay"], " ") == "Kbe Pay"
  {
    assert ["Kbe", "Pay"][1..] == ["Pay"];
  }

  lemma KbePaySnake()
    ensures Translate("kbe-pay", '-', '_') == "kbe_pay"
  {
  }

  lemma KbePayFields()
    ensures DeriveNames("kbe-pay").Ok?
    ensures DeriveNames("kbe-pay").value.pascalName == "KbePay"
    ensures DeriveNames("kbe-pay").value.displayName == "Kbe Pay"
    ensures DeriveNames("kbe-pay").value.snakeName == "kbe_pay"
  {
    KbePayAccepted();
    DerivedWords("kbe-pay");
    KbePayPascal();
    KbePayDisplay();
    KbePaySnake();
  }

  /** The whole record of an accepted name, given its snake, Pascal and
      display names. */
  lemma VariantsOf(name: string, snake: string, pascal: string, display: string)
    requires RegexAccepts(name)
    requires DeriveNames(name).value.snakeName == snake
    requires DeriveNames(name).value.pascalName == pascal
    requires DeriveNames(name).value.displayName == display
    ensures DeriveNames(name) == Ok(NameVariants(
      name, "autobots-" + name, "autobots-" + name, "autobots_" + snake, snake, pascal, display))
  {
  }

  /** `kbe-pay` gives `autobots-kbe-pay`, `autobots_kbe_pay`, `kbe_pay`,
      `KbePay` and `Kbe Pay`. */
  lemma KbePayVariants()
    ensures DeriveNames("kbe-pay") == Ok(NameVariants(
      "kbe-pay", "autobots-kbe-pay", "autobots-kbe-pay", "autobots_kbe_pay",
      "kbe_pay", "KbePay", "Kbe Pay"))
  {
    KbePayFields();
    VariantsOf("kbe-pay", "kbe_pay", "KbePay", "Kbe Pay");
    KbePayPrefixed();
  }

  lemma KbePayPrefixed()
    ensures "autobots-" + "kbe-pay" == "autobots-kbe-pay"
    ensures "autobots_" + "kbe_pay" == "autobots_kbe_pay"
  {
  }

  /** `my-app --display-name "My Application"` changes the display name only. */
  lemma MyAppDisplayOverride()
    ensures ResolveNames("my-app", Some("My Application")).Ok?
    ensures ResolveNames("my-app", Some("My Application")).value.displayName == "My Application"
    ensures ResolveNames("my-app", Some("My Application")).value.snakeName == "my_app"
  {
    MyAppAccepted();
    DerivedWords("my-app");
    MyAppSnake();
  }

  lemma MyAppAccepted()
    ensures NameGrammar("my-app")
  {
  }

  lemma MyAppSnake()
    ensures Translate("my-app", '-', '_') == "my_app"
  {
  }

  /** Names the grammar refuses: upper case, a leading digit, a doubled,
      leading or trailing hyphen, the empty name. */
  lemma RejectedNames()
    ensures DeriveNames("MyApp").Err?
    ensures DeriveNames("1app").Err?
    ensures DeriveNames("my--app").Err?
    ensures DeriveNames("-app").Err?
    ensures DeriveNames("app-").Err?
    ensures DeriveNames("").Err?
  {
    assert !IsLower("MyApp"[0]);
    assert !IsLower("1app"[0]);
    assert "my--app"[2] == '-' && "my--app"[3] == '-';
    assert !IsLower("-app"[0]);
    assert "app-"[3] == '-';
  }

  /** The trailing-newline case of Python's `$`: `kbe-pay` followed by a
      newline is accepted, and the newline stays in every variant. */
  lemma TrailingNewlineAccepted()
    ensures DeriveNames("kbe-pay\n").Ok?
    ensures DeriveNames("kbe-pay\n").value.snakeName == "kbe_pay\n"
  {
    NewlineNameAccepted();
    DerivedWords("kbe-pay\n");
    NewlineNameSnake();
  }

  lemma NewlineNameAccepted()
    ensures RegexAccepts("kbe-pay\n")
  {
    assert "kbe-pay\n"[..7] == "kbe-pay";
    KbePayAccepted();
  }

  lemma NewlineNameSnake()
    ensures Translate("kbe-pay\n", '-', '_') == "kbe_pay\n"
  {
  }
}

=== FILE: overrides.dfy ===
/** The post-processing overrides of `scaffold`: the project description in
    `pyproject.toml` and a non-default port in the Makefile, every
    `settings.py` and the domain's run script. Both act on the tree left by
    the earlier steps and are skipped in a dry run. */
module Overrides {
  import opened Wrappers
  import opened Strings
  import opened ProjectPaths

  const DefaultPort: int := 1337

  // ---------------------------------------------------------------------------
  // Python's str(int)

  function DigitChar(d: nat): (c: char)
    requires d < 10
    ensures '0' <= c <= '9'
  {
    ('0' as int + d) as char
  }

  function DigitValue(c: char): (d: nat)
    requires '0' <= c <= '9'
    ensures d < 10 && DigitChar(d) == c
  {
    (c as int - '0' as int) as nat
  }

  /** `str(n)` for a non-negative `n`: decimal, most significant digit
      first, without leading zeros. */
  function NatToString(n: nat): (s: string)
    ensures |s| > 0
    ensures forall k :: 0 <= k < |s| ==> '0' <= s[k] <= '9'
    ensures |s| > 1 ==> s[0] != '0'
    decreases n
  {
    if n < 10 then [DigitChar(n)] else NatToString(n / 10) + [DigitChar(n % 10)]
  }

  /** `str(n)`: a minus sign in front of a negative number. */
  function IntToString(n: int): (s: string)
    ensures |s| > 0
    ensures n < 0 <==> s[0] == '-'
  {
    if n < 0 then "-" + NatToString(-n) else NatToString(n)
  }

  /** The value of a string of decimal digits. */
  function DigitsValue(s: string): nat
    requires forall k :: 0 <= k < |s| ==> '0' <= s[k] <= '9'
  {
    if |s| == 0 then 0 else 10 * DigitsValue(s[..|s| - 1]) + DigitValue(s[|s| - 1])
  }

  /** Reading the digits back gives the number. */
  lemma {:induction false} NatToStringValue(n: nat)
    ensures DigitsValue(NatToString(n)) == n
    decreases n
  {
    var s := NatToString(n);
    if n >= 10 {
      NatToStringValue(n / 10);
      assert s[..|s| - 1] == NatToString(n / 10);
      assert DigitValue(s[|s| - 1]) == n % 10;
    }
  }

  /** A digit string without leading zeros is the one `str` prints for its
      value: the decimal rendering is canonical. */
  lemma {:induction false} NatToStringCanonical(s: string)
    requires |s| > 0 && (forall k :: 0 <= k < |s| ==> '0' <= s[k] <= '9')
    requires |s| > 1 ==> s[0] != '0'
    ensures NatToString(DigitsValue(s)) == s
    decreases |s|
  {
    var v := DigitsValue(s);
    if |s| > 1 {
      var init, last := s[..|s| - 1], s[|s| - 1];
      NatToStringCanonical(init);
      DigitsValuePositive(init);
      assert v == 10 * DigitsValue(init) + DigitValue(last);
      assert v / 10 == DigitsValue(init) && v % 10 == DigitValue(last);
      assert s == init + [last];
    }
  }

  /** A digit string that starts with a non-zero digit has a non-zero
      value. */
  lemma {:induction false} DigitsValuePositive(s: string)
    requires |s| > 0 && (forall k :: 0 <= k < |s| ==> '0' <= s[k] <= '9')
    requires s[0] != '0'
    ensures DigitsValue(s) > 0
    decreases |s|
  {
    if |s| > 1 {
      DigitsValuePositive(s[..|s| - 1]);
    }
  }

  lemma NatToStringInjective(a: nat, b: nat)
    requires NatToString(a) == NatToString(b)
    ensures a == b
  {
    NatToStringValue(a);
    NatToStringValue(b);
  }

  /** Different ports print differently. */
  lemma IntToStringInjective(a: int, b: int)
    requires IntToString(a) == IntToString(b)
    ensures a == b
  {
    var s := IntToString(a);
    if a < 0 {
      assert b < 0;
      assert s[1..] == NatToString(-a);
      assert s[1..] == NatToString(-b);
      NatToStringInjective(-a, -b);
    } else {
      assert b >= 0;
      NatToStringInjective(a, b);
    }
  }

  // ---------------------------------------------------------------------------
  // The overrides

  /** One file's text with `pat` replaced, when the file exists. */
  function RewriteFile(tree: Tree, p: Path, pat: string, rep: string): (r: Tree)
    requires |pat| > 0
    ensures r.Keys == tree.Keys
    ensures p !in tree ==> r == tree
    ensures forall q :: q in tree && q != p ==> r[q] == tree[q]
  {
    if p in tree then tree[p := ReplaceAll(tree[p], pat, rep)] else tree
  }

  /** The description override: when a description is given (and this is
      not a dry run), the template's description line, which by now names
      the project's display name, becomes the given one. An empty
      description counts as none. */
  function DescriptionOverride(tree: Tree, displayName: string, description: Option<string>, dryRun: bool): (r: Tree)
    ensures r.Keys == tree.Keys
    ensures dryRun || description.None? || description.value == "" ==> r == tree
    ensures !dryRun && description.Some? && description.value != "" && ["pyproject.toml"] in tree ==>
              r[["pyproject.toml"]]
                == ReplaceAll(tree[["pyproject.toml"]], displayName + " - Multi-agent AI Assistant Demo", description.value)
  {
    if !dryRun && description.Some? && description.value != "" then
      RewriteFile(tree, ["pyproject.toml"], displayName + " - Multi-agent AI Assistant Demo", description.value)
    else tree
  }

  /** The files the port override reads: the Makefile, every `settings.py`
      anywhere in the project (this search does not skip any directory),
      and the domain's run script. */
  predicate PortFile(p: Path, snakeName: string): (b: bool)
    ensures b ==> |p| > 0
    ensures b && |p| > 2 ==> Name(p) == "settings.py"
    ensures Name(p) == "settings.py" ==> b
  {
    p == ["Makefile"] || Name(p) == "settings.py" || p == ["sbin", "run_" + snakeName + ".sh"]
  }

  /** The port override applied to one file, by which kind of file it is.
      A file of no such kind keeps its text, and so does every file when
      the new port's text is the default's. */
  function PortOverrideText(p: Path, content: string, portText: string, snakeName: string): (r: string)
    ensures !PortFile(p, snakeName) ==> r == content
    ensures portText == "1337" ==> r == content
  {
    assert portText == "1337" ==>
      && "CHAINLIT_PORT = " + portText == "CHAINLIT_PORT = 1337"
      && "default=" + portText == "default=1337"
      && "PORT:-" + portText == "PORT:-1337";
    var c1 := if p == ["Makefile"] then ReplaceAll(content, "CHAINLIT_PORT = 1337", "CHAINLIT_PORT = " + portText) else content;
    var c2 := if Name(p) == "settings.py" then ReplaceAll(c1, "default=1337", "default=" + portText) else c1;
    if p == ["sbin", "run_" + snakeName + ".sh"] then ReplaceAll(c2, "PORT:-1337", "PORT:-" + portText) else c2
  }

  /** The port override: for a port other than 1337 (and not in a dry run)
      each port file has the default port replaced in its own setting. */
  function PortOverride(tree: Tree, port: int, snakeName: string, dryRun: bool): (r: Tree)
    ensures r.Keys == tree.Keys
    ensures dryRun || port == DefaultPort ==> r == tree
  {
    if !dryRun && port != DefaultPort then
      map p | p in tree :: PortOverrideText(p, tree[p], IntToString(port), snakeName)
    else tree
  }

  /** The description override changes `pyproject.toml` at most. */
  lemma DescriptionTouchesPyproject(tree: Tree, displayName: string, description: Option<string>, dryRun: bool, p: Path)
    requires p in tree && p != ["pyproject.toml"]
    ensures DescriptionOverride(tree, displayName, description, dryRun)[p] == tree[p]
  {
  }

  /** Only port files change. */
  lemma PortOverrideTouchesPortFiles(tree: Tree, port: int, snakeName: string, dryRun: bool, p: Path)
    requires p in tree && !PortFile(p, snakeName)
    ensures PortOverride(tree, port, snakeName, dryRun)[p] == tree[p]
  {
  }

  /** Outside a dry run a non-default port is written, as its decimal text,
      into the setting each kind of port file holds; a `settings.py` is
      updated wherever it lies. */
  lemma PortOverrideSetsPort(tree: Tree, port: int, snakeName: string, p: Path)
    requires p in tree && port != DefaultPort
    ensures p == ["Makefile"] ==>
              PortOverride(tree, port, snakeName, false)[p]
                == ReplaceAll(tree[p], "CHAINLIT_PORT = 1337", "CHAINLIT_PORT = " + IntToString(port))
    ensures Name(p) == "settings.py" ==>
              PortOverride(tree, port, snakeName, false)[p]
                == ReplaceAll(tree[p], "default=1337", "default=" + IntToString(port))
    ensures p == ["sbin", "run_" + snakeName + ".sh"] ==>
              PortOverride(tree, port, snakeName, false)[p]
                == ReplaceAll(tree[p], "PORT:-1337", "PORT:-" + IntToString(port))
  {
    if p == ["sbin", "run_" + snakeName + ".sh"] {
      assert Name(p)[0] == 'r';
    }
  }

  lemma DefaultPortText()
    ensures IntToString(DefaultPort) == "1337"
  {
    assert NatToString(1) == "1";
    assert NatToString(13) == "1" + "3";
    assert NatToString(133) == "13" + "3";
    assert NatToString(1337) == "133" + "7";
  }

  /** The default port is printed as "1337", so the override guarded by
      `port != 1337` would change no file's text even if it ran. */
  lemma DefaultPortIsNoOp(p: Path, content: string, snakeName: string)
    ensures PortOverrideText(p, content, IntToString(DefaultPort), snakeName) == content
  {
    DefaultPortText();
  }
}

=== FILE: paths.dfy ===
/** Paths as sequences of components, and the directories the scaffolder's
    walks never enter. */
module ProjectPaths {

  /** A path, one component per element; the last one is the entry's own
      name. */
  type Path = seq<string>

  /** The files of the project, by path relative to the project directory,
      with their text. */
  type Tree = map<Path, string>

  /** `SKIP_DIRS`: directories the walks never enter. */
  const SkipDirs: set<string> := {".git", ".venv", "__pycache__", "node_modules"}

  /** Some component of `parts` is a skipped directory name. */
  predicate AnySkipped(parts: seq<string>) {
    exists k :: 0 <= k < |parts| && parts[k] in SkipDirs
  }

  /** `PurePath.name`: the last component, empty for the root. */
  function Name(p: Path): (r: string)
    ensures |p| > 0 ==> p[..|p| - 1] + [r] == p
  {
    if |p| == 0 then "" else p[|p| - 1]
  }

  /** `PurePath.parent`: everything but the last component; the root is its
      own parent. */
  function Parent(p: Path): (r: Path)
    ensures |p| > 0 ==> p == r + [Name(p)]
    ensures |p| == 0 ==> r == p
  {
    if |p| == 0 then p else p[..|p| - 1]
  }

  /** `a` is `b` or one of its ancestors. */
  predicate IsPrefix(a: Path, b: Path) {
    |a| <= |b| && b[..|a|] == a
  }

  /** A path below a directory has a skipped component exactly when the
      directory has one or the extra component is skipped. */
  lemma AnySkippedAppend(parts: seq<string>, c: string)
    ensures AnySkipped(parts + [c]) <==> AnySkipped(parts) || c in SkipDirs
  {
    if AnySkipped(parts) {
      var k :| 0 <= k < |parts| && parts[k] in SkipDirs;
      assert (parts + [c])[k] == parts[k];
    }
    if c in SkipDirs {
      assert (parts + [c])[|parts|] == c;
    }
  }

  /** `a` is a proper ancestor of `b`. */
  predicate IsStrictPrefix(a: Path, b: Path) {
    |a| < |b| && b[..|a|] == a
  }

  /** A proper ancestor of a directory's child is the directory or one of
      its ancestors. */
  lemma StrictPrefixOfChild(a: Path, b: Path, c: string)
    requires IsStrictPrefix(a, b + [c])
    ensures IsPrefix(a, b)
  {
    assert (b + [c])[..|a|] == b[..|a|];
  }
}

=== FILE: rename.dfy ===
/** The first phase of `rename_paths`: walking the project bottom-up and
    collecting the `(old, new)` path pairs to rename, before any rename
    happens. Paths are absolute component lists; the walk's directories all
    lie under the project directory. */
module RenamePlan {
  import opened Strings
  import opened ProjectPaths

  /** One `(root, dirs, files)` triple of the walk; the sub-directory list
      plays no part in the plan. */
  datatype WalkEntry = WalkEntry(root: Path, files: seq<string>)

  /** One planned rename. */
  datatype Rename = Rename(from: Path, to: Path)

  /** Renames for the files of one directory, in walk order: every file
      whose name mentions `jarvis` gets that token swapped for the snake
      name, in the same directory. */
  function FileRenames(root: Path, files: seq<string>, sn: string): (r: seq<Rename>)
    ensures |r| <= |files|
    ensures forall x :: x in r <==>
      exists f :: f in files && Contains(f, "jarvis")
                  && x == Rename(root + [f], root + [ReplaceAll(f, "jarvis", sn)])
  {
    if |files| == 0 then []
    else
      var rest := FileRenames(root, files[1..], sn);
      var f := files[0];
      assert forall g :: g in files <==> g == f || g in files[1..];
      if Contains(f, "jarvis") then [Rename(root + [f], root + [ReplaceAll(f, "jarvis", sn)])] + rest
      else rest
  }

  /** Each file rename's source is one level below the directory. */
  lemma {:induction false} FileRenamesOneDeeper(root: Path, files: seq<string>, sn: string)
    ensures forall x :: x in FileRenames(root, files, sn) ==> |x.from| == |root| + 1
  {
    if |files| > 0 {
      FileRenamesOneDeeper(root, files[1..], sn);
    }
  }

  /** The directory's own rename, if any: the package directory becomes the
      new package name, and a directory named exactly `jarvis` becomes the
      snake name when it sits directly in `domains` or `agent_configs`. */
  function DirRename(root: Path, sn: string, pkg: string): (r: seq<Rename>)
    ensures |r| <= 1
    ensures |r| == 1 <==>
      Name(root) == "autobots_agents_jarvis"
      || (Name(root) == "jarvis" && Name(Parent(root)) in {"domains", "agent_configs"})
    ensures |r| == 1 ==> r[0].from == root
    ensures |r| == 1 && Name(root) == "autobots_agents_jarvis" ==> r[0].to == Parent(root) + [pkg]
    ensures |r| == 1 && Name(root) == "jarvis" ==> r[0].to == Parent(root) + [sn]
  {
    if Name(root) == "autobots_agents_jarvis" then [Rename(root, Parent(root) + [pkg])]
    else if Name(root) == "jarvis" && Name(Parent(root)) in {"domains", "agent_configs"} then
      [Rename(root, Parent(root) + [sn])]
    else []
  }

  /** Every directory of the walk lies under the project directory. */
  predicate UnderProject(projectDir: Path, entries: seq<WalkEntry>) {
    forall k :: 0 <= k < |entries| ==> IsPrefix(projectDir, entries[k].root)
  }

  /** The directory's path relative to the project directory. */
  function Relative(projectDir: Path, root: Path): (r: Path)
    requires IsPrefix(projectDir, root)
    ensures projectDir + r == root
  {
    root[|projectDir|..]
  }

  /** The renames one directory of the walk contributes: none when the
      directory lies in a skipped one, else its files' and then its own. */
  function EntryRenames(projectDir: Path, e: WalkEntry, sn: string, pkg: string): (r: seq<Rename>)
    requires IsPrefix(projectDir, e.root)
    ensures |r| <= |e.files| + 1
  {
    if AnySkipped(Relative(projectDir, e.root)) then []
    else FileRenames(e.root, e.files, sn) + DirRename(e.root, sn, pkg)
  }

  /** The number of files the walk lists. */
  function FileCount(entries: seq<WalkEntry>): nat {
    if |entries| == 0 then 0 else |entries[0].files| + FileCount(entries[1..])
  }

  /** The `for root, _, files in os.walk(project_dir, topdown=False)` loop:
      the renames of every directory, in walk order; at most one per file
      and one per directory. */
  function Plan(projectDir: Path, entries: seq<WalkEntry>, sn: string, pkg: string): (r: seq<Rename>)
    requires UnderProject(projectDir, entries)
    ensures |r| <= FileCount(entries) + |entries|
  {
    if |entries| == 0 then []
    else EntryRenames(projectDir, entries[0], sn, pkg) + Plan(projectDir, entries[1..], sn, pkg)
  }

  /** A pair is planned exactly when some directory of the walk contributes
      it. */
  lemma {:induction false} PlanMembers(projectDir: Path, entries: seq<WalkEntry>, sn: string, pkg: string, x: Rename)
    requires UnderProject(projectDir, entries)
    ensures x in Plan(projectDir, entries, sn, pkg)
        <==> exists k :: 0 <= k < |entries| && x in EntryRenames(projectDir, entries[k], sn, pkg)
  {
    if |entries| > 0 {
      PlanMembers(projectDir, entries[1..], sn, pkg, x);
      if exists k :: 0 <= k < |entries| && x in EntryRenames(projectDir, entries[k], sn, pkg) {
        var k :| 0 <= k < |entries| && x in EntryRenames(projectDir, entries[k], sn, pkg);
        if k > 0 {
          assert entries[1..][k - 1] == entries[k];
        }
      }
      if x in Plan(projectDir, entries[1..], sn, pkg) {
        var k :| 0 <= k < |entries| - 1 && x in EntryRenames(projectDir, entries[1..][k], sn, pkg);
        assert entries[1..][k] == entries[k + 1];
      }
    }
  }

  /** Every file whose name mentions `jarvis`, in a directory the walk does
      not skip, is planned to be renamed in place with the token swapped. */
  lemma JarvisFilesPlanned(projectDir: Path, entries: seq<WalkEntry>, sn: string, pkg: string, k: nat, f: string)
    requires UnderProject(projectDir, entries)
    requires k < |entries| && f in entries[k].files && Contains(f, "jarvis")
    requires !AnySkipped(Relative(projectDir, entries[k].root))
    ensures Rename(entries[k].root + [f], entries[k].root + [ReplaceAll(f, "jarvis", sn)])
            in Plan(projectDir, entries, sn, pkg)
  {
    var root := entries[k].root;
    assert Rename(root + [f], root + [ReplaceAll(f, "jarvis", sn)]) in FileRenames(root, entries[k].files, sn);
    PlanMembers(projectDir, entries, sn, pkg, Rename(root + [f], root + [ReplaceAll(f, "jarvis", sn)]));
  }

  /** A rename keeps the entry in its directory and changes only its name:
      a file's name gets every `jarvis` swapped for the snake name, the
      package directory becomes the package name, and a `jarvis` domain
      directory the snake name. */
  predicate RenamesInPlace(x: Rename, sn: string, pkg: string) {
    && |x.from| > 0
    && |x.to| == |x.from|
    && Parent(x.to) == Parent(x.from)
    && (|| (Contains(Name(x.from), "jarvis") && Name(x.to) == ReplaceAll(Name(x.from), "jarvis", sn))
        || (Name(x.from) == "autobots_agents_jarvis" && Name(x.to) == pkg)
        || (Name(x.from) == "jarvis" && Name(Parent(x.from)) in {"domains", "agent_configs"} && Name(x.to) == sn))
  }

  lemma EntryRenamesInPlace(projectDir: Path, e: WalkEntry, sn: string, pkg: string)
    requires IsPrefix(projectDir, e.root)
    ensures forall x :: x in EntryRenames(projectDir, e, sn, pkg) ==> RenamesInPlace(x, sn, pkg)
  {
    forall x | x in EntryRenames(projectDir, e, sn, pkg)
      ensures RenamesInPlace(x, sn, pkg)
    {
      if x in FileRenames(e.root, e.files, sn) {
        var f :| f in e.files && Contains(f, "jarvis")
                 && x == Rename(e.root + [f], e.root + [ReplaceAll(f, "jarvis", sn)]);
        assert Parent(x.from) == e.root && Parent(x.to) == e.root;
      }
    }
  }

  /** Every planned rename stays in its directory. */
  lemma PlanRenamesInPlace(projectDir: Path, entries: seq<WalkEntry>, sn: string, pkg: string)
    requires UnderProject(projectDir, entries)
    ensures forall x :: x in Plan(projectDir, entries, sn, pkg) ==> RenamesInPlace(x, sn, pkg)
  {
    forall x | x in Plan(projectDir, entries, sn, pkg)
      ensures RenamesInPlace(x, sn, pkg)
    {
      PlanMembers(projectDir, entries, sn, pkg, x);
      var k :| 0 <= k < |entries| && x in EntryRenames(projectDir, entries[k], sn, pkg);
      EntryRenamesInPlace(projectDir, entries[k], sn, pkg);
    }
  }

  /** No skipped directory's name mentions the template token. */
  lemma SkipDirsLackToken(d: string)
    requires d in SkipDirs
    ensures !Contains(d, "jarvis")
  {
    if d == "__pycache__" || d == "node_modules" {
      NotContainsByChar(d, "jarvis", 'j');
    } else {
      NotContainsLonger(d, "jarvis");
    }
  }

  lemma EntryRenamesNotSkipped(projectDir: Path, e: WalkEntry, sn: string, pkg: string, x: Rename)
    requires IsPrefix(projectDir, e.root)
    requires x in EntryRenames(projectDir, e, sn, pkg)
    ensures IsPrefix(projectDir, x.from) && !AnySkipped(x.from[|projectDir|..])
  {
    var rel := Relative(projectDir, e.root);
    if x in FileRenames(e.root, e.files, sn) {
      var f :| f in e.files && Contains(f, "jarvis")
               && x == Rename(e.root + [f], e.root + [ReplaceAll(f, "jarvis", sn)]);
      assert x.from[|projectDir|..] == rel + [f];
      AnySkippedAppend(rel, f);
      if f in SkipDirs {
        SkipDirsLackToken(f);
      }
    }
  }

  /** Nothing inside a skipped directory is planned: each renamed path lies
      under the project directory and has no skipped component below it. */
  lemma NothingPlannedInSkippedDirs(projectDir: Path, entries: seq<WalkEntry>, sn: string, pkg: string)
    requires UnderProject(projectDir, entries)
    ensures forall x :: x in Plan(projectDir, entries, sn, pkg) ==>
      IsPrefix(projectDir, x.from) && !AnySkipped(x.from[|projectDir|..])
  {
    forall x | x in Plan(projectDir, entries, sn, pkg)
      ensures IsPrefix(projectDir, x.from) && !AnySkipped(x.from[|projectDir|..])
    {
      PlanMembers(projectDir, entries, sn, pkg, x);
      var k :| 0 <= k < |entries| && x in EntryRenames(projectDir, entries[k], sn, pkg);
      EntryRenamesNotSkipped(projectDir, entries[k], sn, pkg, x);
    }
  }

  /** The walk is bottom-up: no directory comes after itself or after one
      of its sub-directories. */
  ghost predicate PostOrder(entries: seq<WalkEntry>) {
    forall a, b :: 0 <= a < b < |entries| ==> !IsPrefix(entries[a].root, entries[b].root)
  }

  /** Files are leaves: no directory of the walk is, or lies inside, one of
      its files. */
  ghost predicate FilesAreLeaves(entries: seq<WalkEntry>) {
    forall a, b, f :: 0 <= a < |entries| && 0 <= b < |entries| && f in entries[a].files ==>
      !IsPrefix(entries[a].root + [f], entries[b].root)
  }

  /** A directory contributes renames of itself and of its own files only. */
  lemma EntrySources(projectDir: Path, e: WalkEntry, sn: string, pkg: string, x: Rename)
    requires IsPrefix(projectDir, e.root)
    requires x in EntryRenames(projectDir, e, sn, pkg)
    ensures x.from == e.root || exists f :: f in e.files && x.from == e.root + [f]
  {
    if x in FileRenames(e.root, e.files, sn) {
      var f :| f in e.files && Contains(f, "jarvis")
               && x == Rename(e.root + [f], e.root + [ReplaceAll(f, "jarvis", sn)]);
    }
  }

  /** Within one directory the files come before the directory itself. */
  lemma EntryBottomUp(projectDir: Path, e: WalkEntry, sn: string, pkg: string)
    requires IsPrefix(projectDir, e.root)
    ensures InnerFirst(EntryRenames(projectDir, e, sn, pkg))
  {
    FileRenamesOneDeeper(e.root, e.files, sn);
    var p := EntryRenames(projectDir, e, sn, pkg);
    if !AnySkipped(Relative(projectDir, e.root)) {
      var files := FileRenames(e.root, e.files, sn);
      assert forall k :: 0 <= k < |p| ==>
        (k < |files| ==> |p[k].from| == |e.root| + 1) && (k >= |files| ==> p[k].from == e.root);
    }
  }

  /** A rename planned for a later directory never renames an ancestor of
      an earlier directory's entry. */
  lemma LaterEntryNotAncestor(projectDir: Path, entries: seq<WalkEntry>, sn: string, pkg: string, x: Rename, y: Rename)
    requires UnderProject(projectDir, entries) && |entries| > 0
    requires PostOrder(entries) && FilesAreLeaves(entries)
    requires x in EntryRenames(projectDir, entries[0], sn, pkg)
    requires y in Plan(projectDir, entries[1..], sn, pkg)
    ensures !IsStrictPrefix(x.from, y.from)
  {
    PlanMembers(projectDir, entries[1..], sn, pkg, y);
    var k :| 0 <= k < |entries| - 1 && y in EntryRenames(projectDir, entries[1..][k], sn, pkg);
    var later := entries[k + 1];
    assert entries[1..][k] == later;
    EntrySources(projectDir, entries[0], sn, pkg, x);
    EntrySources(projectDir, later, sn, pkg, y);
    if IsStrictPrefix(x.from, y.from) {
      if y.from != later.root {
        var g :| g in later.files && y.from == later.root + [g];
        StrictPrefixOfChild(x.from, later.root, g);
      }
      assert IsPrefix(x.from, later.root);
    }
  }

  /** Whenever one rename's source lies inside another's, the inner rename
      comes first. */
  predicate InnerFirst(p: seq<Rename>) {
    forall i, j :: 0 <= i < |p| && 0 <= j < |p| && IsStrictPrefix(p[j].from, p[i].from) ==> i < j
  }

  lemma InnerFirstAppend(e: seq<Rename>, rest: seq<Rename>)
    requires InnerFirst(e) && InnerFirst(rest)
    requires forall x, y :: x in e && y in rest ==> !IsStrictPrefix(x.from, y.from)
    ensures InnerFirst(e + rest)
  {
    var p := e + rest;
    forall i, j | 0 <= i < |p| && 0 <= j < |p| && IsStrictPrefix(p[j].from, p[i].from)
      ensures i < j
    {
      if j >= |e| && i >= |e| {
        assert p[j] == rest[j - |e|] && p[i] == rest[i - |e|];
      }
    }
  }

  /** Bottom-up: whenever one planned rename's source lies inside
      another's, the inner rename comes first, so renaming a directory
      never invalidates a path still waiting in the plan. */
  lemma {:induction false} PlanBottomUp(projectDir: Path, entries: seq<WalkEntry>, sn: string, pkg: string)
    requires UnderProject(projectDir, entries)
    requires PostOrder(entries) && FilesAreLeaves(entries)
    ensures InnerFirst(Plan(projectDir, entries, sn, pkg))
  {
    if |entries| > 0 {
      var e := EntryRenames(projectDir, entries[0], sn, pkg);
      var rest := Plan(projectDir, entries[1..], sn, pkg);
      PlanBottomUp(projectDir, entries[1..], sn, pkg);
      EntryBottomUp(projectDir, entries[0], sn, pkg);
      forall x, y | x in e && y in rest
        ensures !IsStrictPrefix(x.from, y.from)
      {
        LaterEntryNotAncestor(projectDir, entries, sn, pkg, x, y);
      }
      InnerFirstAppend(e, rest);
    }
  }

  // ---------------------------------------------------------------------------
  // Worked examples

  /** The template's domain directory is renamed to the snake name in
      place. */
  lemma DomainDirExample()
    ensures DirRename(["proj", "src", "autobots_agents_jarvis", "domains", "jarvis"], "kbe_pay", "autobots_kbe_pay")
         == [Rename(["proj", "src", "autobots_agents_jarvis", "domains", "jarvis"],
                    ["proj", "src", "autobots_agents_jarvis", "domains", "kbe_pay"])]
  {
    var root := ["proj", "src", "autobots_agents_jarvis", "domains", "jarvis"];
    var parent := ["proj", "src", "autobots_agents_jarvis", "domains"];
    assert Name(root) == "jarvis" && Name(root) != "autobots_agents_jarvis";
    assert Parent(root) == parent;
    assert Name(parent) == "domains";
    assert parent + ["kbe_pay"] == ["proj", "src", "autobots_agents_jarvis", "domains", "kbe_pay"];
  }

  /** A directory named `jarvis` anywhere else keeps its name. */
  lemma OtherJarvisDirExample()
    ensures DirRename(["proj", "docs", "jarvis"], "kbe_pay", "autobots_kbe_pay") == []
  {
    var root := ["proj", "docs", "jarvis"];
    assert Name(root) == "jarvis";
    assert Name(Parent(root)) == "docs";
  }
}

=== FILE: replacements.dfy ===
/** The ordered replacement table (`build_replacements`) and its application
    to a text (`apply_replacements`). */
module Replacements {
  import opened Wrappers
  import opened Strings
  import opened Ascii
  import opened ProjectNames

  /** One `(old, new)` pair of the table. */
  datatype Replacement = Replacement(pat: string, rep: string)

  /** Every search string is non-empty, so each pair is a well-defined
      `str.replace`. */
  predicate ValidTable(table: seq<Replacement>) {
    forall i :: 0 <= i < |table| ==> |table[i].pat| > 0
  }

  /** `apply_replacements`: the pairs are applied one after another, in list
      order, each one globally to the result of all the earlier ones. A text
      that contains none of the search strings comes back unchanged. */
  function ApplyReplacements(content: string, table: seq<Replacement>): (r: string)
    requires ValidTable(table)
    ensures (forall i :: 0 <= i < |table| ==> !Contains(content, table[i].pat)) ==> r == content
    decreases |table|
  {
    if |table| == 0 then content
    else
      var next := ReplaceAll(content, table[0].pat, table[0].rep);
      assert (forall i :: 0 <= i < |table| ==> !Contains(content, table[i].pat)) ==> next == content by {
        if !Contains(content, table[0].pat) {
          ReplaceAllAbsent(content, table[0].pat, table[0].rep);
        }
      }
      ApplyReplacements(next, table[1..])
  }

  /** The `for old, new in replacements` loop as written. */
  method ApplyReplacementsLoop(content: string, table: seq<Replacement>) returns (r: string)
    requires ValidTable(table)
    ensures r == ApplyReplacements(content, table)
  {
    r := content;
    var i := 0;
    while i < |table|
      invariant 0 <= i <= |table|
      invariant ApplyReplacements(content, table) == ApplyReplacements(r, table[i..])
    {
      assert table[i..][1..] == table[i + 1..];
      r := ReplaceAll(r, table[i].pat, table[i].rep);
      i := i + 1;
    }
  }

  /** Applying a table in two halves is applying the first half and then the
      second: the fold runs strictly in list order. In particular the empty
      table changes nothing, and the last pair acts on the result of all the
      others. */
  lemma {:induction false} ApplyInListOrder(content: string, t1: seq<Replacement>, t2: seq<Replacement>)
    requires ValidTable(t1) && ValidTable(t2)
    ensures ValidTable(t1 + t2)
    ensures ApplyReplacements(content, t1 + t2) == ApplyReplacements(ApplyReplacements(content, t1), t2)
    ensures ApplyReplacements(content, []) == content
    decreases |t1|
  {
    if |t1| > 0 {
      assert (t1 + t2)[1..] == t1[1..] + t2;
      ApplyInListOrder(ReplaceAll(content, t1[0].pat, t1[0].rep), t1[1..], t2);
    } else {
      assert t1 + t2 == t2;
    }
  }

  /** Most specific first: no search string occurs inside a search string
      that comes later in the table. */
  predicate MostSpecificFirst(table: seq<Replacement>) {
    forall i, j :: 0 <= i < j < |table| ==> !Contains(table[j].pat, table[i].pat)
  }

  /** What the ordering buys: a text that is exactly one of the search
      strings is rewritten by its own pair first, not by an earlier pair
      that matches part of it; only later pairs then see the result. */
  lemma OwnPairFiresFirst(table: seq<Replacement>, k: nat)
    requires ValidTable(table) && MostSpecificFirst(table)
    requires k < |table|
    ensures ApplyReplacements(table[k].pat, table) == ApplyReplacements(table[k].rep, table[k + 1..])
  {
    SkipAbsentPairs(table[k].pat, table, k);
    OwnPairRewrites(table, k);
  }

  /** Pairs whose search strings a text lacks leave it alone, so a table
      that starts with such pairs acts on the text like the rest of it. */
  lemma {:induction false} SkipAbsentPairs(content: string, table: seq<Replacement>, k: nat)
    requires ValidTable(table) && k <= |table|
    requires forall i :: 0 <= i < k ==> !Contains(content, table[i].pat)
    ensures ApplyReplacements(content, table) == ApplyReplacements(content, table[k..])
    decreases k
  {
    if k > 0 {
      ReplaceAllAbsent(content, table[0].pat, table[0].rep);
      assert forall i :: 0 <= i < k - 1 ==> table[1..][i] == table[i + 1];
      SkipAbsentPairs(content, table[1..], k - 1);
      assert table[1..][k - 1..] == table[k..];
    }
  }

  /** A key's own pair turns the whole key into its replacement. */
  lemma OwnPairRewrites(table: seq<Replacement>, k: nat)
    requires ValidTable(table)
    requires k < |table|
    ensures ApplyReplacements(table[k].pat, table[k..]) == ApplyReplacements(table[k].rep, table[k + 1..])
  {
    var p, rep := table[k].pat, table[k].rep;
    assert ReplaceAll(p, p, rep) == rep by {
      ReplaceAllLeading(p, "", rep);
      assert p + "" == p;
      assert rep + "" == rep;
    }
    assert table[k..][0] == table[k];
    assert table[k..][1..] == table[k + 1..];
  }

  // ---------------------------------------------------------------------------
  // The scaffolder's table

  /** The template's identifiers, in the table's order. */
  const TemplateKeys: seq<string> := [
    "autobots-agents-jarvis",
    "autobots_agents_jarvis",
    "JarvisSettings",
    "get_jarvis_settings",
    "init_jarvis_settings",
    "register_jarvis_tools",
    "_get_jarvis_batch_agents",
    "jarvis_registered",
    "jarvis_batch",
    "jarvis_chat",
    "jarvis-chat",
    "jarvis_tools",
    "jarvis-invoke-demo",
    "run_jarvis",
    "jarvis_ui",
    "JARVIS",
    "Jarvis",
    "jarvis"
  ]

  /** `build_replacements`: eighteen pairs whose search strings are the
      template's fixed identifiers, whatever the names. */
  function BuildReplacements(v: NameVariants): (t: seq<Replacement>)
    ensures |t| == |TemplateKeys| == 18
    ensures forall i :: 0 <= i < |t| ==> t[i].pat == TemplateKeys[i]
    ensures ValidTable(t)
  {
    var sn := v.snakeName;
    [
      Replacement("autobots-agents-jarvis", v.repoName),
      Replacement("autobots_agents_jarvis", v.packageName),
      Replacement("JarvisSettings", v.pascalName + "Settings"),
      Replacement("get_jarvis_settings", "get_" + sn + "_settings"),
      Replacement("init_jarvis_settings", "init_" + sn + "_settings"),
      Replacement("register_jarvis_tools", "register_" + sn + "_tools"),
      Replacement("_get_jarvis_batch_agents", "_get_" + sn + "_batch_agents"),
      Replacement("jarvis_registered", sn + "_registered"),
      Replacement("jarvis_batch", sn + "_batch"),
      Replacement("jarvis_chat", sn + "_chat"),
      Replacement("jarvis-chat", sn + "-chat"),
      Replacement("jarvis_tools", sn + "_tools"),
      Replacement("jarvis-invoke-demo", sn + "-invoke-demo"),
      Replacement("run_jarvis", "run_" + sn),
      Replacement("jarvis_ui", sn + "_ui"),
      Replacement("JARVIS", Upper(sn)),
      Replacement("Jarvis", v.displayName),
      Replacement("jarvis", sn)
    ]
  }

  /** The repository name occurs in no later key. */
  lemma RepoKeyOrdered(j: nat)
    requires 0 < j < |TemplateKeys|
    ensures !Contains(TemplateKeys[j], TemplateKeys[0])
  {
    var a, b := TemplateKeys[0], TemplateKeys[j];
    if j == 1 {
      NotContainsWindow(b, a, 8);
    } else if j == 6 {
      NotContainsWindow(b, a, 0);
    } else {
      NotContainsLonger(b, a);
    }
  }

  /** Nor does the package name. */
  lemma PackageKeyOrdered(j: nat)
    requires 1 < j < |TemplateKeys|
    ensures !Contains(TemplateKeys[j], TemplateKeys[1])
  {
    var a, b := TemplateKeys[1], TemplateKeys[j];
    if j == 6 {
      NotContainsWindow(b, a, 0);
    } else {
      NotContainsLonger(b, a);
    }
  }

  /** The settings class name. */
  lemma ClassKeyOrdered(j: nat)
    requires 2 < j < |TemplateKeys|
    ensures !Contains(TemplateKeys[j], TemplateKeys[2])
  {
    var a, b := TemplateKeys[2], TemplateKeys[j];
    if j <= 7 || j == 12 {
      NotContainsByChar(b, a, 'J');
    } else {
      NotContainsLonger(b, a);
    }
  }

  /** The two settings accessors overlap in everything but their verbs. */
  lemma SettingsAccessorsDiffer()
    ensures !Contains(TemplateKeys[4], TemplateKeys[3])
    ensures !Contains(TemplateKeys[6], TemplateKeys[3])
    ensures !Contains(TemplateKeys[6], TemplateKeys[4])
  {
    GetInitDiffer();
    GetBatchDiffer();
    InitBatchDiffer();
  }

  lemma GetInitDiffer()
    ensures !Contains("init_jarvis_settings", "get_jarvis_settings")
  {
    NotContainsWindow("init_jarvis_settings", "get_jarvis_settings", 0);
  }

  lemma GetBatchDiffer()
    ensures !Contains("_get_jarvis_batch_agents", "get_jarvis_settings")
  {
    NotContainsWindow("_get_jarvis_batch_agents", "get_jarvis_settings", 11);
  }

  lemma InitBatchDiffer()
    ensures !Contains("_get_jarvis_batch_agents", "init_jarvis_settings")
  {
    NotContainsWindow("_get_jarvis_batch_agents", "init_jarvis_settings", 0);
  }

  /** The settings accessors and the tool and agent registrars. */
  lemma AccessorKeysOrdered(i: nat, j: nat)
    requires 3 <= i <= 6 && i < j < |TemplateKeys|
    ensures !Contains(TemplateKeys[j], TemplateKeys[i])
  {
    var a, b := TemplateKeys[i], TemplateKeys[j];
    if i <= 4 && (j == 4 || j == 6) {
      SettingsAccessorsDiffer();
    } else if i <= 4 && j == 5 {
      NotContainsByChar(b, a, 'n');
    } else if i == 5 && j == 6 {
      NotContainsByChar(b, a, 'o');
    } else {
      NotContainsLonger(b, a);
    }
  }

  /** The `jarvis_...` and `jarvis-...` identifiers. */
  lemma SuffixedKeysOrdered(i: nat, j: nat)
    requires 7 <= i <= 11 && i < j < |TemplateKeys|
    ensures !Contains(TemplateKeys[j], TemplateKeys[i])
  {
    var a, b := TemplateKeys[i], TemplateKeys[j];
    if j == 12 && i != 10 {
      NotContainsByChar(b, a, '_');
    } else if i == 8 && j == 11 {
      NotContainsByChar(b, a, 'b');
    } else if i == 9 && j == 10 {
      NotContainsByChar(b, a, '_');
    } else if (i == 9 && j == 11) || (i == 10 && j == 12) {
      NotContainsByChar(b, a, 'c');
    } else if i == 10 && j == 11 {
      NotContainsByChar(b, a, '-');
    } else {
      NotContainsLonger(b, a);
    }
  }

  /** The short keys at the end of the table, down to the bare token. */
  lemma TrailingKeysOrdered(i: nat, j: nat)
    requires 12 <= i && i < j < |TemplateKeys|
    ensures !Contains(TemplateKeys[j], TemplateKeys[i])
  {
    var a, b := TemplateKeys[i], TemplateKeys[j];
    if i == 15 && j == 16 {
      NotContainsByChar(b, a, 'A');
    } else if 15 <= i && j == 17 {
      NotContainsByChar(b, a, 'J');
    } else {
      NotContainsLonger(b, a);
    }
  }

  /** Key `i` does not occur in any later key `j`. */
  lemma KeyPairOrdered(i: nat, j: nat)
    requires i < j < |TemplateKeys|
    ensures !Contains(TemplateKeys[j], TemplateKeys[i])
  {
    if i == 0 {
      RepoKeyOrdered(j);
    } else if i == 1 {
      PackageKeyOrdered(j);
    } else if i == 2 {
      ClassKeyOrdered(j);
    } else if i <= 6 {
      AccessorKeysOrdered(i, j);
    } else if i <= 11 {
      SuffixedKeysOrdered(i, j);
    } else {
      TrailingKeysOrdered(i, j);
    }
  }

  /** The table is ordered most specific first; the bare `jarvis` catch-all
      is the last pair and `Jarvis` comes after `JarvisSettings`. */
  lemma TableMostSpecificFirst(v: NameVariants)
    ensures MostSpecificFirst(BuildReplacements(v))
    ensures BuildReplacements(v)[17] == Replacement("jarvis", v.snakeName)
    ensures BuildReplacements(v)[2].pat == "JarvisSettings" && BuildReplacements(v)[16].pat == "Jarvis"
  {
    var t := BuildReplacements(v);
    forall i, j | 0 <= i < j < |t|
      ensures !Contains(t[j].pat, t[i].pat)
    {
      KeyPairOrdered(i, j);
    }
  }

  /** The one occurrence of `pat` in `x + pat + y` is replaced when neither
      `x` nor `y` holds `pat`'s first character. */
  lemma ReplaceSingleOccurrence(x: string, y: string, pat: string, rep: string)
    requires |pat| > 0 && pat[0] !in x && pat[0] !in y
    ensures ReplaceAll(x + pat + y, pat, rep) == x + rep + y
  {
    assert x + pat + y == x + (pat + y);
    ReplaceAllSkipPrefix(x, pat + y, pat, rep);
    ReplaceAllLeading(pat, y, rep);
    ReplaceAllSkipPrefix(y, "", pat, rep);
    assert y + "" == y;
  }

  /** Pair `r` is the identifier `x + token + y` rewritten to
      `x + with + y`, and the token's first character appears nowhere else
      in the identifier. */
  predicate SwapsTokenAt(r: Replacement, x: string, token: string, y: string, with: string)
    requires |token| > 0
  {
    && r.pat == x + token + y
    && r.rep == x + with + y
    && token[0] !in x && token[0] !in y
  }

  /** Such a pair's replacement is exactly what `pat.replace(token, with)`
      makes of its search string. */
  lemma SwapsTokenAtReplaces(r: Replacement, x: string, token: string, y: string, with: string)
    requires |token| > 0 && SwapsTokenAt(r, x, token, y, with)
    ensures r.rep == ReplaceAll(r.pat, token, with)
  {
    ReplaceSingleOccurrence(x, y, token, with);
  }

  lemma ClassAndAccessorKeysSplit()
    ensures "JarvisSettings" == "" + "Jarvis" + "Settings"
    ensures "get_jarvis_settings" == "get_" + "jarvis" + "_settings"
    ensures "init_jarvis_settings" == "init_" + "jarvis" + "_settings"
    ensures "register_jarvis_tools" == "register_" + "jarvis" + "_tools"
    ensures "_get_jarvis_batch_agents" == "_get_" + "jarvis" + "_batch_agents"
    ensures "jarvis_registered" == "" + "jarvis" + "_registered"
    ensures "jarvis_batch" == "" + "jarvis" + "_batch"
  {
  }

  lemma ShortKeysSplit()
    ensures "jarvis_chat" == "" + "jarvis" + "_chat"
    ensures "jarvis-chat" == "" + "jarvis" + "-chat"
    ensures "jarvis_tools" == "" + "jarvis" + "_tools"
    ensures "jarvis-invoke-demo" == "" + "jarvis" + "-invoke-demo"
    ensures "run_jarvis" == "run_" + "jarvis" + ""
    ensures "jarvis_ui" == "" + "jarvis" + "_ui"
    ensures "jarvis" == "" + "jarvis" + ""
  {
  }

  lemma AffixesLackToken()
    ensures 'j' !in "get_" && 'j' !in "init_" && 'j' !in "register_" && 'j' !in "_get_"
    ensures 'j' !in "run_" && 'J' !in "Settings"
    ensures 'j' !in "_settings" && 'j' !in "_tools" && 'j' !in "_batch_agents"
    ensures 'j' !in "_registered" && 'j' !in "_batch" && 'j' !in "_chat"
    ensures 'j' !in "-chat" && 'j' !in "-invoke-demo" && 'j' !in "_ui"
  {
  }

  lemma LongRows(v: NameVariants)
    ensures var t, sn := BuildReplacements(v), v.snakeName;
            && t[2] == Replacement("JarvisSettings", v.pascalName + "Settings")
            && t[3] == Replacement("get_jarvis_settings", "get_" + sn + "_settings")
            && t[4] == Replacement("init_jarvis_settings", "init_" + sn + "_settings")
            && t[5] == Replacement("register_jarvis_tools", "register_" + sn + "_tools")
            && t[6] == Replacement("_get_jarvis_batch_agents", "_get_" + sn + "_batch_agents")
            && t[7] == Replacement("jarvis_registered", sn + "_registered")
            && t[8] == Replacement("jarvis_batch", sn + "_batch")
  {
  }

  lemma ShortRows(v: NameVariants)
    ensures var t, sn := BuildReplacements(v), v.snakeName;
            && t[9] == Replacement("jarvis_chat", sn + "_chat")
            && t[10] == Replacement("jarvis-chat", sn + "-chat")
            && t[11] == Replacement("jarvis_tools", sn + "_tools")
            && t[12] == Replacement("jarvis-invoke-demo", sn + "-invoke-demo")
            && t[13] == Replacement("run_jarvis", "run_" + sn)
            && t[14] == Replacement("jarvis_ui", sn + "_ui")
            && t[17] == Replacement("jarvis", sn)
  {
  }

  /** The class name and the settings and registration identifiers keep
      their shape: only `Jarvis`, respectively `jarvis`, changes. */
  lemma LongRulesSwapToken(v: NameVariants)
    ensures var t, sn := BuildReplacements(v), v.snakeName;
            && SwapsTokenAt(t[2], "", "Jarvis", "Settings", v.pascalName)
            && SwapsTokenAt(t[3], "get_", "jarvis", "_settings", sn)
            && SwapsTokenAt(t[4], "init_", "jarvis", "_settings", sn)
            && SwapsTokenAt(t[5], "register_", "jarvis", "_tools", sn)
            && SwapsTokenAt(t[6], "_get_", "jarvis", "_batch_agents", sn)
            && SwapsTokenAt(t[7], "", "jarvis", "_registered", sn)
            && SwapsTokenAt(t[8], "", "jarvis", "_batch", sn)
  {
    ClassAndAccessorKeysSplit();
    AffixesLackToken();
    LongRows(v);
    assert "" + v.pascalName + "Settings" == v.pascalName + "Settings";
    assert "" + v.snakeName + "_registered" == v.snakeName + "_registered";
    assert "" + v.snakeName + "_batch" == v.snakeName + "_batch";
  }

  /** The short `jarvis` identifiers and the bare token likewise. */
  lemma ShortRulesSwapToken(v: NameVariants)
    ensures var t, sn := BuildReplacements(v), v.snakeName;
            && SwapsTokenAt(t[9], "", "jarvis", "_chat", sn)
            && SwapsTokenAt(t[10], "", "jarvis", "-chat", sn)
            && SwapsTokenAt(t[11], "", "jarvis", "_tools", sn)
            && SwapsTokenAt(t[12], "", "jarvis", "-invoke-demo", sn)
            && SwapsTokenAt(t[13], "run_", "jarvis", "", sn)
            && SwapsTokenAt(t[14], "", "jarvis", "_ui", sn)
            && SwapsTokenAt(t[17], "", "jarvis", "", sn)
  {
    ShortKeysSplit();
    AffixesLackToken();
    ShortRows(v);
    var sn := v.snakeName;
    assert "" + sn + "_chat" == sn + "_chat";
    assert "" + sn + "-chat" == sn + "-chat";
    assert "" + sn + "_tools" == sn + "_tools";
    assert "" + sn + "-invoke-demo" == sn + "-invoke-demo";
    assert "run_" + sn + "" == "run_" + sn;
    assert "" + sn + "_ui" == sn + "_ui";
    assert "" + sn + "" == sn;
  }

  /** Every pair from the third on, except the two spellings of the bare
      name, swaps the template token exactly as `replace` would. */
  lemma TokenRulesReplace(v: NameVariants)
    ensures var t := BuildReplacements(v);
            && t[2].rep == ReplaceAll(t[2].pat, "Jarvis", v.pascalName)
            && forall k :: 3 <= k <= 14 || k == 17 ==> t[k].rep == ReplaceAll(t[k].pat, "jarvis", v.snakeName)
  {
    var t, sn := BuildReplacements(v), v.snakeName;
    LongRulesSwapToken(v);
    ShortRulesSwapToken(v);
    SwapsTokenAtReplaces(t[2], "", "Jarvis", "Settings", v.pascalName);
    forall k | 3 <= k <= 14 || k == 17
      ensures t[k].rep == ReplaceAll(t[k].pat, "jarvis", sn)
    {
      if k == 3 {
        SwapsTokenAtReplaces(t[k], "get_", "jarvis", "_settings", sn);
      } else if k == 4 {
        SwapsTokenAtReplaces(t[k], "init_", "jarvis", "_settings", sn);
      } else if k == 5 {
        SwapsTokenAtReplaces(t[k], "register_", "jarvis", "_tools", sn);
      } else if k == 6 {
        SwapsTokenAtReplaces(t[k], "_get_", "jarvis", "_batch_agents", sn);
      } else if k == 7 {
        SwapsTokenAtReplaces(t[k], "", "jarvis", "_registered", sn);
      } else if k == 8 {
        SwapsTokenAtReplaces(t[k], "", "jarvis", "_batch", sn);
      } else if k == 9 {
        SwapsTokenAtReplaces(t[k], "", "jarvis", "_chat", sn);
      } else if k == 10 {
        SwapsTokenAtReplaces(t[k], "", "jarvis", "-chat", sn);
      } else if k == 11 {
        SwapsTokenAtReplaces(t[k], "", "jarvis", "_tools", sn);
      } else if k == 12 {
        SwapsTokenAtReplaces(t[k], "", "jarvis", "-invoke-demo", sn);
      } else if k == 13 {
        SwapsTokenAtReplaces(t[k], "run_", "jarvis", "", sn);
      } else if k == 14 {
        SwapsTokenAtReplaces(t[k], "", "jarvis", "_ui", sn);
      } else {
        SwapsTokenAtReplaces(t[k], "", "jarvis", "", sn);
      }
    }
  }

  /** For a valid name, the table maps the repository and package names to
      the project's, `JARVIS` to the upper-cased snake name, `Jarvis` to
      the display name, and every other identifier to itself with the
      token swapped, exactly as `replace` would swap it. */
  lemma TableForName(name: string, displayName: Option<string>)
    requires RegexAccepts(name)
    ensures var v := WithDisplayName(DeriveNames(name).value, displayName);
            var t, sn := BuildReplacements(v), Translate(name, '-', '_');
            && t[0] == Replacement("autobots-agents-jarvis", "autobots-" + name)
            && t[1] == Replacement("autobots_agents_jarvis", "autobots_" + sn)
            && t[2].rep == ReplaceAll(t[2].pat, "Jarvis", v.pascalName)
            && (forall k :: 3 <= k <= 14 || k == 17 ==> t[k].rep == ReplaceAll(t[k].pat, "jarvis", sn))
            && t[15] == Replacement("JARVIS", Upper(sn))
            && t[16] == Replacement("Jarvis", v.displayName)
  {
    DerivedWords(name);
    TokenRulesReplace(WithDisplayName(DeriveNames(name).value, displayName));
  }
}

=== FILE: rewrite.dfy ===
/** `replace_in_files`: the content pass over the project tree. The tree is
    a map from a file's path, as components relative to the project
    directory, to its text; which files decode as UTF-8 text and may be
    read is a given set, standing in for the failed reads the scaffolder
    skips. */
module ContentRewrite {
  import opened BinaryFiles
  import opened Replacements
  import opened ProjectPaths


  /** The walk prunes skipped directories at every depth, so a file is
      reached unless one of its directories (not its own name) is skipped. */
  predicate InSkippedDir(p: Path): (b: bool)
    ensures b ==> |p| >= 2
    ensures |p| >= 2 && p[0] in SkipDirs ==> b
  {
    |p| > 0 && AnySkipped(p[..|p| - 1])
  }

  /** The files the pass rewrites: reached by the walk, not binary by
      extension, and readable as text. No directory on such a file's path
      is a skipped one. */
  predicate Rewritable(p: Path, readable: set<Path>): (b: bool)
    ensures b ==> p in readable && !IsBinary(Name(p))
  {
    && |p| > 0
    && !InSkippedDir(p)
    && !IsBinary(p[|p| - 1])
    && p in readable
  }

  /** The files of the tree the pass may rewrite. */
  function RewritableFiles(tree: Tree, readable: set<Path>): (r: set<Path>)
    ensures r <= tree.Keys
  {
    set p | p in tree && Rewritable(p, readable)
  }

  /** The tree after the pass: every rewritable file holds its replaced
      text, every other file is left alone. */
  function RewriteTree(tree: Tree, readable: set<Path>, table: seq<Replacement>): (r: Tree)
    requires ValidTable(table)
    ensures r.Keys == tree.Keys
  {
    var rw := RewritableFiles(tree, readable);
    map p | p in tree :: if p in rw then ApplyReplacements(tree[p], table) else tree[p]
  }

  /** The files the pass writes (or, in a dry run, reports): those whose
      text the replacements actually change. */
  function ChangedFiles(tree: Tree, readable: set<Path>, table: seq<Replacement>): (r: set<Path>)
    requires ValidTable(table)
    ensures r <= tree.Keys
  {
    ChangedAmong(tree, RewritableFiles(tree, readable), table)
  }

  /** The files among `rw` whose text the replacements change. */
  function ChangedAmong(tree: Tree, rw: set<Path>, table: seq<Replacement>): (r: set<Path>)
    requires ValidTable(table)
    ensures r <= tree.Keys
  {
    set p | p in rw && p in tree && ApplyReplacements(tree[p], table) != tree[p]
  }

  /** The walk lists every file of the tree exactly once. */
  ghost predicate WalkOf(walk: seq<Path>, tree: Tree) {
    && (forall p :: p in tree <==> p in walk)
    && (forall i, j :: 0 <= i < j < |walk| ==> walk[i] != walk[j])
  }

  /** The state of the pass: the tree as written so far and the files
      recorded as updated, in the order the walk reached them. */
  datatype Pass = Pass(tree: Tree, updated: seq<Path>)

  /** One file of the walk: skipped unless rewritable; otherwise its text
      is replaced, written back (unless this is a dry run) and the file
      recorded, but only when the replacement changed something. */
  function VisitFile(s: Pass, p: Path, readable: set<Path>, table: seq<Replacement>, dryRun: bool): (r: Pass)
    requires ValidTable(table)
    ensures r.tree.Keys == s.tree.Keys
    ensures dryRun ==> r.tree == s.tree
    ensures r.updated == s.updated || r.updated == s.updated + [p]
    ensures r.updated != s.updated ==> Rewritable(p, readable)
    ensures r.tree != s.tree ==> r.updated == s.updated + [p]
  {
    if p in s.tree && Rewritable(p, readable) then
      var content := s.tree[p];
      var newContent := ApplyReplacements(content, table);
      if newContent != content then
        Pass(if dryRun then s.tree else s.tree[p := newContent], s.updated + [p])
      else s
    else s
  }

  /** The pass over the files of `walk`, in order. */
  function WalkFiles(tree: Tree, walk: seq<Path>, readable: set<Path>, table: seq<Replacement>, dryRun: bool): (r: Pass)
    requires ValidTable(table)
    ensures r.tree.Keys == tree.Keys
    ensures dryRun ==> r.tree == tree
    ensures |r.updated| <= |walk|
  {
    if |walk| == 0 then Pass(tree, [])
    else VisitFile(WalkFiles(tree, walk[..|walk| - 1], readable, table, dryRun), walk[|walk| - 1], readable, table, dryRun)
  }

  /** A walk over distinct files of the tree rewrites exactly the
      rewritable ones it reaches, or none in a dry run. */
  lemma {:induction false} WalkFilesTree(tree: Tree, walk: seq<Path>, readable: set<Path>, table: seq<Replacement>, dryRun: bool)
    requires ValidTable(table)
    requires forall k :: 0 <= k < |walk| ==> walk[k] in tree
    requires forall i, j :: 0 <= i < j < |walk| ==> walk[i] != walk[j]
    ensures var r := WalkFiles(tree, walk, readable, table, dryRun);
            && r.tree.Keys == tree.Keys
            && forall q :: q in tree ==>
                 r.tree[q] == (if !dryRun && q in walk && Rewritable(q, readable)
                               then ApplyReplacements(tree[q], table) else tree[q])
  {
    if |walk| > 0 {
      var init, p := walk[..|walk| - 1], walk[|walk| - 1];
      assert walk == init + [p];
      WalkFilesTree(tree, init, readable, table, dryRun);
      assert p !in init;
      var prev := WalkFiles(tree, init, readable, table, dryRun);
      var r := VisitFile(prev, p, readable, table, dryRun);
      assert prev.tree[p] == tree[p];
      forall q | q in tree
        ensures r.tree[q] == (if !dryRun && q in walk && Rewritable(q, readable)
                              then ApplyReplacements(tree[q], table) else tree[q])
      {
        if q != p {
          assert q in walk <==> q in init;
        }
      }
    }
  }

  /** The same walk records exactly the files whose text changes, each
      once. */
  lemma WalkFilesUpdated(tree: Tree, walk: seq<Path>, readable: set<Path>, table: seq<Replacement>, dryRun: bool)
    requires ValidTable(table)
    requires forall k :: 0 <= k < |walk| ==> walk[k] in tree
    requires forall i, j :: 0 <= i < j < |walk| ==> walk[i] != walk[j]
    ensures var r := WalkFiles(tree, walk, readable, table, dryRun);
            && (forall q :: q in r.updated <==> q in walk && q in ChangedFiles(tree, readable, table))
            && (forall i, j :: 0 <= i < j < |r.updated| ==> r.updated[i] != r.updated[j])
  {
    WalkFilesRecords(tree, walk, readable, table, dryRun);
    WalkFilesRecordsOnce(tree, walk, readable, table, dryRun);
  }

  /** The walk records a file exactly when it reached it and its text
      changes. */
  lemma {:induction false} WalkFilesRecords(tree: Tree, walk: seq<Path>, readable: set<Path>, table: seq<Replacement>, dryRun: bool)
    requires ValidTable(table)
    requires forall k :: 0 <= k < |walk| ==> walk[k] in tree
    requires forall i, j :: 0 <= i < j < |walk| ==> walk[i] != walk[j]
    ensures forall q :: q in WalkFiles(tree, walk, readable, table, dryRun).updated
                    <==> q in walk && q in ChangedFiles(tree, readable, table)
  {
    if |walk| > 0 {
      var init, p := walk[..|walk| - 1], walk[|walk| - 1];
      assert walk == init + [p];
      WalkFilesRecords(tree, init, readable, table, dryRun);
      WalkFilesTree(tree, init, readable, table, dryRun);
      RewriteAt(tree, readable, table, p);
      assert p !in init;
      var prev := WalkFiles(tree, init, readable, table, dryRun);
      assert prev.tree[p] == tree[p];
      var r := VisitFile(prev, p, readable, table, dryRun);
      assert r.updated == prev.updated + [p] <==> p in ChangedFiles(tree, readable, table);
      forall q
        ensures q in r.updated <==> q in walk && q in ChangedFiles(tree, readable, table)
      {
        assert q in walk <==> q in init || q == p;
      }
    }
  }

  /** Only files the walk reached are recorded. */
  lemma {:induction false} WalkFilesRecordsReached(tree: Tree, walk: seq<Path>, readable: set<Path>, table: seq<Replacement>, dryRun: bool)
    requires ValidTable(table)
    ensures forall q :: q in WalkFiles(tree, walk, readable, table, dryRun).updated ==> q in walk
  {
    if |walk| > 0 {
      var init := walk[..|walk| - 1];
      WalkFilesRecordsReached(tree, init, readable, table, dryRun);
      assert forall q :: q in init ==> q in walk;
    }
  }

  /** No file is recorded twice. */
  lemma {:induction false} WalkFilesRecordsOnce(tree: Tree, walk: seq<Path>, readable: set<Path>, table: seq<Replacement>, dryRun: bool)
    requires ValidTable(table)
    requires forall i, j :: 0 <= i < j < |walk| ==> walk[i] != walk[j]
    ensures Distinct(WalkFiles(tree, walk, readable, table, dryRun).updated)
  {
    if |walk| > 0 {
      var init, p := walk[..|walk| - 1], walk[|walk| - 1];
      WalkFilesRecordsOnce(tree, init, readable, table, dryRun);
      WalkFilesRecordsReached(tree, init, readable, table, dryRun);
      forall k | 0 <= k < |init|
        ensures init[k] != p
      {
        assert init[k] == walk[k];
      }
      var prev := WalkFiles(tree, init, readable, table, dryRun).updated;
      var u := WalkFiles(tree, walk, readable, table, dryRun).updated;
      assert u == prev || u == prev + [p];
      if u != prev {
        AppendFresh(prev, p);
      }
    }
  }

  /** No path occurs twice. */
  predicate Distinct(ps: seq<Path>) {
    forall i, j :: 0 <= i < j < |ps| ==> ps[i] != ps[j]
  }

  /** Appending a path the sequence lacks keeps its paths distinct. */
  lemma AppendFresh(a: seq<Path>, p: Path)
    requires Distinct(a) && p !in a
    ensures Distinct(a + [p])
  {
    var b := a + [p];
    forall i, j | 0 <= i < j < |b|
      ensures b[i] != b[j]
    {
      assert b[i] == a[i];
      if j < |a| {
        assert b[j] == a[j];
      }
    }
  }

  /** What the pass does to one file of the tree. */
  lemma RewriteAt(tree: Tree, readable: set<Path>, table: seq<Replacement>, p: Path)
    requires ValidTable(table) && p in tree
    ensures RewriteTree(tree, readable, table)[p]
         == if Rewritable(p, readable) then ApplyReplacements(tree[p], table) else tree[p]
    ensures p in ChangedFiles(tree, readable, table)
        <==> Rewritable(p, readable) && ApplyReplacements(tree[p], table) != tree[p]
  {
  }

  /** A walk of the whole tree ends in the rewritten tree. */
  lemma WholeWalkRewrites(tree: Tree, walk: seq<Path>, readable: set<Path>, table: seq<Replacement>)
    requires ValidTable(table)
    requires WalkOf(walk, tree)
    ensures WalkFiles(tree, walk, readable, table, false).tree == RewriteTree(tree, readable, table)
  {
    WalkFilesTree(tree, walk, readable, table, false);
    var r := WalkFiles(tree, walk, readable, table, false).tree;
    var target := RewriteTree(tree, readable, table);
    forall q | q in r
      ensures r[q] == target[q]
    {
      assert q in walk;
      RewriteAt(tree, readable, table, q);
    }
    SameTrees(r, target);
  }

  /** Two trees with the same files holding the same texts are equal. */
  lemma SameTrees(a: Tree, b: Tree)
    requires a.Keys == b.Keys
    requires forall q :: q in a ==> a[q] == b[q]
    ensures a == b
  {
  }

  /** A dry run over the whole tree writes nothing. */
  lemma WholeWalkDryRun(tree: Tree, walk: seq<Path>, readable: set<Path>, table: seq<Replacement>)
    requires ValidTable(table)
    requires WalkOf(walk, tree)
    ensures WalkFiles(tree, walk, readable, table, true).tree == tree
  {
    WalkFilesTree(tree, walk, readable, table, true);
  }

  /** Either way, the walk records exactly the changed files, each once. */
  lemma WholeWalkRecords(tree: Tree, walk: seq<Path>, readable: set<Path>, table: seq<Replacement>, dryRun: bool)
    requires ValidTable(table)
    requires WalkOf(walk, tree)
    ensures var r := WalkFiles(tree, walk, readable, table, dryRun);
            && (forall q :: q in r.updated <==> q in ChangedFiles(tree, readable, table))
            && (forall i, j :: 0 <= i < j < |r.updated| ==> r.updated[i] != r.updated[j])
  {
    WalkFilesUpdated(tree, walk, readable, table, dryRun);
  }

  /** One more file of the walk is one more visit. */
  lemma WalkFilesStep(tree: Tree, walk: seq<Path>, i: nat, readable: set<Path>, table: seq<Replacement>, dryRun: bool)
    requires ValidTable(table) && i < |walk|
    ensures WalkFiles(tree, walk[..i + 1], readable, table, dryRun)
         == VisitFile(WalkFiles(tree, walk[..i], readable, table, dryRun), walk[i], readable, table, dryRun)
  {
    assert walk[..i + 1][..i] == walk[..i];
  }

  /** The body of the walk for one file: a file that is rewritable has its
      text replaced; when that changed something it is written back
      (unless this is a dry run) and recorded as updated. It is the
      statement form of `VisitFile`, kept apart from the loop of
      `ReplaceInFiles` so that each of the two proofs stays small. */
  method ReplaceInFile(tree: Tree, updated: seq<Path>, p: Path, readable: set<Path>,
                       table: seq<Replacement>, dryRun: bool)
    returns (tree': Tree, updated': seq<Path>)
    requires ValidTable(table)
    ensures Pass(tree', updated') == VisitFile(Pass(tree, updated), p, readable, table, dryRun)
  {
    tree', updated' := tree, updated;
    if p in tree && Rewritable(p, readable) {
      var content := tree[p];
      var newContent := ApplyReplacements(content, table);
      if newContent != content {
        if !dryRun {
          tree' := tree[p := newContent];
        }
        updated' := updated + [p];
      }
    }
  }

  /** The `for root, dirs, files in os.walk(...)` loop: every file in walk
      order, reading each rewritable one, writing it back only when its
      text changed, and recording it as updated. A dry run writes nothing
      but records the same files. */
  method ReplaceInFiles(tree: Tree, walk: seq<Path>, readable: set<Path>,
                        table: seq<Replacement>, dryRun: bool)
    returns (result: Tree, updated: seq<Path>)
    requires ValidTable(table)
    requires WalkOf(walk, tree)
    ensures dryRun ==> result == tree
    ensures !dryRun ==> result == RewriteTree(tree, readable, table)
    ensures forall p :: p in updated <==> p in ChangedFiles(tree, readable, table)
    ensures forall i, j :: 0 <= i < j < |updated| ==> updated[i] != updated[j]
  {
    var s := Pass(tree, []);
    var i := 0;
    while i < |walk|
      invariant 0 <= i <= |walk|
      invariant s == WalkFiles(tree, walk[..i], readable, table, dryRun)
    {
      WalkFilesStep(tree, walk, i, readable, table, dryRun);
      var t, u := ReplaceInFile(s.tree, s.updated, walk[i], readable, table, dryRun);
      s := Pass(t, u);
      i := i + 1;
    }
    assert walk[..i] == walk;
    WholeWalkRecords(tree, walk, readable, table, dryRun);
    if dryRun {
      WholeWalkDryRun(tree, walk, readable, table);
    } else {
      WholeWalkRewrites(tree, walk, readable, table);
    }
    result, updated := s.tree, s.updated;
  }

  /** A file inside a skipped directory is never rewritten, whatever it
      holds. */
  lemma SkippedDirsUntouched(tree: Tree, readable: set<Path>, table: seq<Replacement>, p: Path)
    requires ValidTable(table)
    requires p in tree && InSkippedDir(p)
    ensures RewriteTree(tree, readable, table)[p] == tree[p]
    ensures p !in ChangedFiles(tree, readable, table)
  {
  }

  /** The pass changes a file exactly when it is rewritable and the
      replacements alter its text, and then to the replaced text. */
  lemma RewriteChangesExactly(tree: Tree, readable: set<Path>, table: seq<Replacement>)
    requires ValidTable(table)
    ensures forall p :: p in tree ==>
      (RewriteTree(tree, readable, table)[p] != tree[p] <==> p in ChangedFiles(tree, readable, table))
    ensures forall p :: p in ChangedFiles(tree, readable, table) ==>
      RewriteTree(tree, readable, table)[p] == ApplyReplacements(tree[p], table)
  {
  }

  /** A walk that reaches nothing changeable leaves the tree as it was,
      which is the whole effect of a dry run. */
  lemma NothingChangedIsIdentity(tree: Tree, readable: set<Path>, table: seq<Replacement>)
    requires ValidTable(table)
    requires ChangedFiles(tree, readable, table) == {}
    ensures RewriteTree(tree, readable, table) == tree
  {
    forall q | q in tree
      ensures RewriteTree(tree, readable, table)[q] == tree[q]
    {
      RewriteAt(tree, readable, table, q);
    }
  }

  /** A binary or unreadable file keeps its bytes. */
  lemma BinaryAndUnreadableUntouched(tree: Tree, readable: set<Path>, table: seq<Replacement>, p: Path)
    requires ValidTable(table)
    requires p in tree && |p| > 0 && (IsBinary(p[|p| - 1]) || p !in readable)
    ensures RewriteTree(tree, readable, table)[p] == tree[p]
  {
  }

  /** Only directory names are checked against the skip list: a file that
      happens to be called `.git` is still rewritten. */
  lemma FileNamedLikeSkippedDir()
    ensures !InSkippedDir([".git"]) && InSkippedDir([".git", "config"])
  {
    assert [".git"][..0] == [];
    assert [".git", "config"][..1][0] in SkipDirs;
  }
}

=== FILE: strings.dfy ===
/** The Python `str` operations the scaffolder relies on: substring test
    (`t in s`), `s.split(sep)`, `sep.join(parts)` and `s.replace(pat, rep)`,
    each for a non-empty separator or search string. */
module Strings {

  /** `t` occurs in `s` starting at index `i`. */
  predicate OccursAt(s: string, t: string, i: nat) {
    i + |t| <= |s| && s[i..i + |t|] == t
  }

  /** Python's `t in s`. */
  predicate Contains(s: string, t: string): (b: bool)
    ensures b ==> |t| <= |s|
    ensures |t| <= |s| && s[..|t|] == t ==> b
  {
    assert |t| <= |s| && s[..|t|] == t ==> OccursAt(s, t, 0);
    exists i: nat :: i <= |s| && OccursAt(s, t, i)
  }

  /** An occurrence in the tail of `s` is an occurrence in `s`. */
  lemma ContainsTail(s: string, t: string)
    requires |s| > 0 && Contains(s[1..], t)
    ensures Contains(s, t)
  {
    var i: nat :| i <= |s[1..]| && OccursAt(s[1..], t, i);
    assert s[i + 1..i + 1 + |t|] == s[1..][i..i + |t|];
    assert OccursAt(s, t, i + 1);
  }

  /** Neither a prefix match nor a match in the tail: no match at all. */
  lemma NotContainsStep(s: string, t: string)
    requires |s| > 0 && |t| > 0
    requires !(|t| <= |s| && s[..|t|] == t)
    requires !Contains(s[1..], t)
    ensures !Contains(s, t)
  {
    if Contains(s, t) {
      var i: nat :| i <= |s| && OccursAt(s, t, i);
      if i > 0 {
        assert s[1..][i - 1..i - 1 + |t|] == s[i..i + |t|];
        assert OccursAt(s[1..], t, i - 1);
      }
    }
  }

  lemma NotContainsLonger(s: string, t: string)
    requires |t| > |s|
    ensures !Contains(s, t)
  {
  }

  /** A string never contains a character-longer string, nor one holding a
      character it lacks. */
  lemma NotContainsByChar(s: string, t: string, c: char)
    requires c in t && c !in s
    ensures !Contains(s, t)
  {
  }

  /** A string does not contain `t` when `t[k]` is missing from every place
      of `s` where it would have to sit. */
  lemma NotContainsWindow(s: string, t: string, k: nat)
    requires k < |t| <= |s|
    requires t[k] !in s[k..|s| - |t| + k + 1]
    ensures !Contains(s, t)
  {
    forall i: nat | i + |t| <= |s|
      ensures !OccursAt(s, t, i)
    {
      assert s[k..|s| - |t| + k + 1][i] == s[i + k] == s[i..i + |t|][k];
    }
  }

  /** A string of one character occurs exactly where the character does. */
  lemma ContainsChar(s: string, c: char)
    ensures Contains(s, [c]) <==> c in s
  {
    if c in s {
      var k :| 0 <= k < |s| && s[k] == c;
      assert OccursAt(s, [c], k);
    }
    if Contains(s, [c]) {
      var i: nat :| i <= |s| && OccursAt(s, [c], i);
      assert s[i] == s[i..i + 1][0];
    }
  }

  // ---------------------------------------------------------------------------
  // join

  /** `sep.join(parts)` */
  function Join(parts: seq<string>, sep: string): (r: string)
    ensures |parts| > 0 ==> |parts[0]| <= |r| && r[..|parts[0]|] == parts[0]
    decreases |parts|
  {
    if |parts| == 0 then ""
    else if |parts| == 1 then parts[0]
    else parts[0] + sep + Join(parts[1..], sep)
  }

  /** `"".join(parts)` */
  function Concat(parts: seq<string>): (r: string)
    ensures r == Join(parts, "")
    decreases |parts|
  {
    if |parts| == 0 then "" else parts[0] + Concat(parts[1..])
  }

  /** Prefixing the first part prefixes the joined string. */
  lemma JoinConsHead(c: string, parts: seq<string>, sep: string)
    requires |parts| > 0
    ensures Join([c + parts[0]] + parts[1..], sep) == c + Join(parts, sep)
  {
    var ps := [c + parts[0]] + parts[1..];
    assert ps[1..] == parts[1..];
  }

  /** An empty first part contributes just the separator. */
  lemma JoinAfterEmpty(rest: seq<string>, sep: string)
    requires |rest| > 0
    ensures Join([""] + rest, sep) == sep + Join(rest, sep)
  {
    assert ([""] + rest)[1..] == rest;
  }

  /** Every character of every part survives into the joined string. */
  lemma {:induction false} JoinKeepsChars(parts: seq<string>, sep: string, k: nat, c: char)
    requires k < |parts| && c in parts[k]
    ensures c in Join(parts, sep)
    decreases |parts|
  {
    if |parts| == 1 {
    } else if k == 0 {
      assert Join(parts, sep) == parts[0] + (sep + Join(parts[1..], sep));
    } else {
      JoinKeepsChars(parts[1..], sep, k - 1, c);
      assert Join(parts, sep) == (parts[0] + sep) + Join(parts[1..], sep);
    }
  }

  // ---------------------------------------------------------------------------
  // split

  /** `s.split(sep)` for a non-empty `sep`: the pieces between the leftmost,
      non-overlapping occurrences of `sep`. */
  function Split(s: string, sep: string): (parts: seq<string>)
    requires |sep| > 0
    ensures |parts| > 0
    ensures |parts[0]| <= |s| && s[..|parts[0]|] == parts[0]
    decreases |s|
  {
    if |s| < |sep| then [s]
    else if s[..|sep|] == sep then [""] + Split(s[|sep|..], sep)
    else
      var rest := Split(s[1..], sep);
      assert s[..|rest[0]| + 1] == [s[0]] + s[1..][..|rest[0]|];
      [[s[0]] + rest[0]] + rest[1..]
  }

  /** Joining the pieces with the separator gives the string back. */
  lemma {:induction false} JoinSplit(s: string, sep: string)
    requires |sep| > 0
    ensures Join(Split(s, sep), sep) == s
    decreases |s|
  {
    if |s| < |sep| {
    } else if s[..|sep|] == sep {
      var rest := Split(s[|sep|..], sep);
      JoinSplit(s[|sep|..], sep);
      JoinAfterEmpty(rest, sep);
      assert s == sep + s[|sep|..];
    } else {
      var rest := Split(s[1..], sep);
      JoinSplit(s[1..], sep);
      JoinConsHead([s[0]], rest, sep);
      assert Split(s, sep) == [[s[0]] + rest[0]] + rest[1..];
      assert s == [s[0]] + s[1..];
    }
  }

  /** No piece contains the separator. */
  lemma {:induction false} SplitPartsLackSeparator(s: string, sep: string)
    requires |sep| > 0
    ensures forall k :: 0 <= k < |Split(s, sep)| ==> !Contains(Split(s, sep)[k], sep)
    decreases |s|
  {
    var parts := Split(s, sep);
    if |s| < |sep| {
      NotContainsLonger(s, sep);
    } else if s[..|sep|] == sep {
      SplitPartsLackSeparator(s[|sep|..], sep);
      NotContainsLonger("", sep);
      assert parts[1..] == Split(s[|sep|..], sep);
    } else {
      var rest := Split(s[1..], sep);
      SplitPartsLackSeparator(s[1..], sep);
      JoinSplit(s[1..], sep);
      var head := [s[0]] + rest[0];
      assert head[1..] == rest[0];
      assert !(|sep| <= |head| && head[..|sep|] == sep) by {
        if |sep| <= |head| {
          assert head[..|sep|] == s[..|sep|];
        }
      }
      NotContainsStep(head, sep);
      forall k | 0 <= k < |parts|
        ensures !Contains(parts[k], sep)
      {
        if k > 0 {
          assert parts[k] == rest[k];
        }
      }
    }
  }

  /** Splitting on a separator absent from the string gives the string alone. */
  lemma {:induction false} SplitAbsent(s: string, sep: string)
    requires |sep| > 0 && !Contains(s, sep)
    ensures Split(s, sep) == [s]
    decreases |s|
  {
    if |s| < |sep| {
    } else {
      assert !OccursAt(s, sep, 0);
      if Contains(s[1..], sep) {
        ContainsTail(s, sep);
      }
      SplitAbsent(s[1..], sep);
      assert s == [s[0]] + s[1..];
    }
  }

  /** Splitting is leftmost: when the first occurrence of `sep` starts at
      `i`, the first piece is everything before it and the scan resumes
      right after it. */
  lemma {:induction false} SplitAtFirstOccurrence(s: string, sep: string, i: nat)
    requires |sep| > 0 && OccursAt(s, sep, i)
    requires forall j: nat :: j < i ==> !OccursAt(s, sep, j)
    ensures Split(s, sep) == [s[..i]] + Split(s[i + |sep|..], sep)
    decreases i
  {
    if i == 0 {
      assert s[..|sep|] == sep;
    } else {
      assert !OccursAt(s, sep, 0);
      var t := s[1..];
      assert OccursAt(t, sep, i - 1) by {
        assert t[i - 1..i - 1 + |sep|] == s[i..i + |sep|];
      }
      forall j: nat | j < i - 1
        ensures !OccursAt(t, sep, j)
      {
        assert !OccursAt(s, sep, j + 1);
        if j + |sep| <= |t| {
          assert t[j..j + |sep|] == s[j + 1..j + 1 + |sep|];
        }
      }
      SplitAtFirstOccurrence(t, sep, i - 1);
      assert t[i - 1 + |sep|..] == s[i + |sep|..];
      assert [s[0]] + t[..i - 1] == s[..i];
    }
  }

  /** Overlapping candidates: the leftmost one wins, as in Python, where
      `"aaa".split("aa")` is `['', 'a']`. */
  lemma SplitOverlapExample()
    ensures Split("aaa", "aa") == ["", "a"]
  {
    SplitAtFirstOccurrence("aaa", "aa", 0);
    assert "aaa"[2..] == "a";
  }

  // ---------------------------------------------------------------------------
  // replace

  /** `s.replace(pat, rep)` for a non-empty `pat`: scanning left to right,
      every occurrence of `pat` that does not overlap an occurrence already
      replaced becomes `rep`. */
  function ReplaceAll(s: string, pat: string, rep: string): (r: string)
    requires |pat| > 0
    ensures rep == pat ==> r == s
    decreases |s|
  {
    if |s| < |pat| then s
    else if s[..|pat|] == pat then
      assert s == pat + s[|pat|..];
      rep + ReplaceAll(s[|pat|..], pat, rep)
    else
      assert s == [s[0]] + s[1..];
      [s[0]] + ReplaceAll(s[1..], pat, rep)
  }

  /** `"aaa".replace("aa", "b")` is `"ba"`: the overlapping later match is
      not replaced. */
  lemma ReplaceOverlapExample()
    ensures ReplaceAll("aaa", "aa", "b") == "ba"
  {
    ReplaceAllAtFirstOccurrence("aaa", "aa", "b", 0);
    assert "aaa"[2..] == "a";
  }

  /** `s.replace(pat, rep) == rep.join(s.split(pat))`: replacing is splitting
      at the occurrences and gluing the pieces back with the rep text. */
  lemma {:induction false} ReplaceAllIsJoinSplit(s: string, pat: string, rep: string)
    requires |pat| > 0
    ensures ReplaceAll(s, pat, rep) == Join(Split(s, pat), rep)
    decreases |s|
  {
    if |s| < |pat| {
    } else if s[..|pat|] == pat {
      ReplaceAllIsJoinSplit(s[|pat|..], pat, rep);
      var rest := Split(s[|pat|..], pat);
      assert Split(s, pat) == [""] + rest;
      JoinAfterEmpty(rest, rep);
    } else {
      ReplaceAllIsJoinSplit(s[1..], pat, rep);
      var rest := Split(s[1..], pat);
      assert Split(s, pat) == [[s[0]] + rest[0]] + rest[1..];
      JoinConsHead([s[0]], rest, rep);
    }
  }

  /** Replacing is leftmost: when the first occurrence of `pat` starts at
      `i`, the text before it is kept, that occurrence becomes `rep`, and
      the scan resumes right after it. */
  lemma ReplaceAllAtFirstOccurrence(s: string, pat: string, rep: string, i: nat)
    requires |pat| > 0 && OccursAt(s, pat, i)
    requires forall j: nat :: j < i ==> !OccursAt(s, pat, j)
    ensures ReplaceAll(s, pat, rep) == s[..i] + rep + ReplaceAll(s[i + |pat|..], pat, rep)
  {
    var rest := Split(s[i + |pat|..], pat);
    SplitAtFirstOccurrence(s, pat, i);
    ReplaceAllIsJoinSplit(s, pat, rep);
    ReplaceAllIsJoinSplit(s[i + |pat|..], pat, rep);
    var ps := [""] + rest;
    JoinAfterEmpty(rest, rep);
    JoinConsHead(s[..i], ps, rep);
    assert ps[1..] == rest;
    assert s[..i] + ps[0] == s[..i];
  }

  /** A string without an occurrence of `pat` is left as it is. */
  lemma {:induction false} ReplaceAllAbsent(s: string, pat: string, rep: string)
    requires |pat| > 0 && !Contains(s, pat)
    ensures ReplaceAll(s, pat, rep) == s
    decreases |s|
  {
    if |s| < |pat| {
    } else {
      assert !OccursAt(s, pat, 0);
      if Contains(s[1..], pat) {
        ContainsTail(s, pat);
      }
      ReplaceAllAbsent(s[1..], pat, rep);
      assert s == [s[0]] + s[1..];
    }
  }

  /** A prefix that cannot start an occurrence (it lacks `pat`'s first
      character) is copied through unchanged. */
  lemma {:induction false} ReplaceAllSkipPrefix(x: string, t: string, pat: string, rep: string)
    requires |pat| > 0 && pat[0] !in x
    ensures ReplaceAll(x + t, pat, rep) == x + ReplaceAll(t, pat, rep)
    decreases |x|
  {
    if |x| > 0 {
      var s := x + t;
      assert s[0] == x[0];
      if |s| >= |pat| {
        assert s[..|pat|][0] == x[0];
      }
      assert s[1..] == x[1..] + t;
      ReplaceAllSkipPrefix(x[1..], t, pat, rep);
    } else {
      assert x + t == t;
    }
  }

  /** A leading occurrence is replaced and the scan resumes after it. */
  lemma ReplaceAllLeading(pat: string, t: string, rep: string)
    requires |pat| > 0
    ensures ReplaceAll(pat + t, pat, rep) == rep + ReplaceAll(t, pat, rep)
  {
    var s := pat + t;
    assert s[..|pat|] == pat;
    assert s[|pat|..] == t;
  }

  /** Replacing a one-character string is a character-wise translation. */
  function Translate(s: string, a: char, b: char): (r: string)
    ensures |r| == |s|
    ensures forall i :: 0 <= i < |s| ==> r[i] == (if s[i] == a then b else s[i])
  {
    seq(|s|, i requires 0 <= i < |s| => if s[i] == a then b else s[i])
  }

  lemma {:induction false} ReplaceCharIsTranslate(s: string, a: char, b: char)
    ensures ReplaceAll(s, [a], [b]) == Translate(s, a, b)
    decreases |s|
  {
    if |s| > 0 {
      ReplaceCharIsTranslate(s[1..], a, b);
      assert Translate(s, a, b) == [Translate(s, a, b)[0]] + Translate(s[1..], a, b);
      if s[..1] == [a] {
        assert s[0] == a;
        assert s[1..] == s[|[a]|..];
      } else {
        assert s[0] != a;
      }
    }
  }

  /** `s` with every `c` removed. */
  function Remove(s: string, c: char): (r: string)
    ensures c !in r
    ensures |r| <= |s|
    decreases |s|
  {
    if |s| == 0 then ""
    else if s[0] == c then Remove(s[1..], c)
    else [s[0]] + Remove(s[1..], c)
  }

  lemma {:induction false} RemoveAppend(a: string, b: string, c: char)
    ensures Remove(a + b, c) == Remove(a, c) + Remove(b, c)
    decreases |a|
  {
    if |a| > 0 {
      assert (a + b)[1..] == a[1..] + b;
      RemoveAppend(a[1..], b, c);
    } else {
      assert a + b == b;
    }
  }

  lemma {:induction false} RemoveAbsent(s: string, c: char)
    requires c !in s
    ensures Remove(s, c) == s
    decreases |s|
  {
    if |s| > 0 {
      RemoveAbsent(s[1..], c);
      assert s == [s[0]] + s[1..];
    }
  }
}

=== FILE: wrappers.dfy ===
/** Failure-carrying results, used where the scaffolder stops with an error
    instead of producing a value. */
module Wrappers {

  datatype Option<+T> = None | Some(value: T)

  datatype Result<+T, +E> = Ok(value: T) | Err(error: E)
}
